=== FILE: README.md ===
# phpextra/collection in Dafny

A model of the in-memory behaviour of the `PHPExtra\Type\Collection` library. It has
three layers, one Dafny module each.

- **`Collections`** models `AbstractCollection`. Its state is:
  - the PHP array `$entities`, as an insertion-ordered map from non-negative integer
    keys to elements plus the next free key that `$a[] = v` writes at (module
    `PhpArrays`);
  - the read-only flag;
  - the cached `\ArrayIterator`. It is a copy of the array taken when it was built,
    a position in that copy, and the `isIteratorValid` flag.
- **`Proxies`** models `CollectionProxy`. It holds one collection and forwards every
  operation to it.
- **`Lazies`** models `LazyCollection`. It is a proxy that holds:
  - an optional initializer;
  - the `isInitialized` flag;
  - a held collection that starts empty and is filled on the first `getCollection()`.

Elements are `Value<T> = Null | Val(T)`. PHP `null` has to be distinct from other
elements because `offsetExists` is `isset`. Exceptions are results:
- `RuntimeException('Collection is read only')` is `ReadOnlyViolation`;
- `OutOfRangeException` is `IndexOutOfRange(k)`;
- the lazy collection's `Unexpected type given` is `UnexpectedType`.

Every operation is a pure function. An operation that changes state returns
`Step(state, result)`, and it returns the state on failure too. This matters because
the lazy collection has already marked itself initialized when its initializer
result is rejected.

Module `Laws` relates several operations for all inputs. Module `Scenarios` proves
what the model gives on the inputs of the repository's tests.

The proxy's `getCollection` reads one field, so it carries no contract of its own.
It is used in the contracts and lemmas below.

Three behaviours of the code are easy to misread:
- **`first()` and `last()`** (AbstractCollection.php:169-180) read the literal keys `0` and `count() - 1` through
  `offsetGet`. They do not read the first and last entries in enumeration order.
  - On a sparse map they can therefore throw `OutOfRangeException`.
  - They also throw when that key holds `null`.
  - See `Scenarios.FirstOnSparseCollection`.
- **Iteration** (AbstractCollection.php:90-97) visits entries in insertion order,
  which is the order of a PHP array, and not in ascending key order.
- **Serialization** (LazyCollection.php:102-116). `serialize` is modelled by the elements it stores. `unserialize`
  builds a new lazy collection whose initializer returns them.

## Model

| member | source | states |
|---|---|---|
| PhpArrays.Push | src/PHPExtra/Type/Collection/AbstractCollection.php:82 | `$a[] = v` appends an entry at the next free key, which no entry holds, and moves that key up by one |
| PhpArrays.Put | src/PHPExtra/Type/Collection/AbstractCollection.php:147 | `$a[k] = v` makes `k` map to `v` and leaves every other key's lookup unchanged. A present key is overwritten at its position, with the same key order and counter. An absent key is appended last, and the next free key moves past it |
| PhpArrays.Remove | src/PHPExtra/Type/Collection/AbstractCollection.php:162 | `unset($a[k])` removes `k` and leaves every other lookup unchanged. It removes exactly one entry when `k` is present, and the entries before and after it keep their order. It is the identity when `k` is absent. The next free key never goes back |
| PhpArrays.KeySetSize | src/PHPExtra/Type/Collection/AbstractCollection.php:112 | Keys of a PHP array are distinct, so an array has exactly as many keys as entries |
| PhpArrays.Lookup | src/PHPExtra/Type/Collection/AbstractCollection.php:132 | A key lookup finds a value exactly when some entry holds the key, and then it is that entry's value |
| PhpArrays.ArraySlice | src/PHPExtra/Type/Collection/AbstractCollection.php:257 | `array_slice` over enumeration positions. An offset past the end gives nothing. A negative offset counts from the end, clamped at 0. A missing length runs to the end. A negative length stops that many entries before the end, or gives nothing when that point is before the start |
| Collections.Empty | src/PHPExtra/Type/Collection/AbstractCollection.php:15-43 | A new collection has an empty array with next free key 0. It is writable and has no iterator |
| Collections.AddAll | src/PHPExtra/Type/Collection/AbstractCollection.php:40-42 | Adding a sequence in turn appends one entry per item at consecutive keys from the next free key. It succeeds with the iterator marked stale iff items were added; on a read-only collection it throws at the first item and changes nothing |
| Collections.Create | src/PHPExtra/Type/Collection/AbstractCollection.php:38-43 | The constructor yields exactly the given items in order, at keys 0..n-1. It is writable, with no iterator |
| Collections.IsReadOnly | src/PHPExtra/Type/Collection/AbstractCollection.php:60-63 | True exactly when `add` throws the read-only exception and changes nothing, and exactly when `offsetUnset` throws it |
| Collections.SetReadOnly | src/PHPExtra/Type/Collection/AbstractCollection.php:50-55 | Sets the flag and changes neither the array nor what the iterator walks next |
| Collections.Add | src/PHPExtra/Type/Collection/AbstractCollection.php:77-85 | On a read-only collection it throws and changes nothing. Otherwise: the element lands at the next free key after every entry; every other key is unchanged; the values gain the element at the end; count rises by exactly 1; the iterator is marked stale |
| Collections.Count | src/PHPExtra/Type/Collection/AbstractCollection.php:110-113 | The number of entries, which is zero exactly when the array is empty |
| Collections.CountIsKeyCount | src/PHPExtra/Type/Collection/AbstractCollection.php:110-113 | `count` equals the number of distinct keys in use |
| Collections.IsEmpty | src/PHPExtra/Type/Collection/AbstractCollection.php:102-105 | True exactly when the array has no entries |
| Collections.OffsetExists | src/PHPExtra/Type/Collection/AbstractCollection.php:118-121 | `isset`: true exactly when an entry holds the key and its value is not `null` |
| Collections.OffsetGet | src/PHPExtra/Type/Collection/AbstractCollection.php:126-133 | Throws `OutOfRangeException(k)` exactly when `offsetExists(k)` is false; otherwise returns the stored, non-null value |
| Collections.OffsetSet | src/PHPExtra/Type/Collection/AbstractCollection.php:138-152 | Throws on a read-only collection. A missing key is exactly `add`. Otherwise the key maps to the value, every other key is unchanged, and `offsetGet(k)` gives it back, or throws when it is `null`. A present key keeps its position, the key order and the next free key. An absent key is appended last, and the next free key moves past it. The iterator is marked stale |
| Collections.OffsetUnset | src/PHPExtra/Type/Collection/AbstractCollection.php:157-164 | Throws on a read-only collection. Otherwise the key is gone and every other key is unchanged. The count drops by one when the key was present, and the other entries keep their order. The array is untouched when the key was absent. The next free key never changes. The iterator is marked stale |
| Collections.First | src/PHPExtra/Type/Collection/AbstractCollection.php:169-172 | `null` on an empty collection. Otherwise it succeeds exactly when key 0 holds a non-null value, returns that value, and throws `OutOfRangeException(0)` when it fails |
| Collections.Last | src/PHPExtra/Type/Collection/AbstractCollection.php:177-180 | `null` on an empty collection. Otherwise it succeeds exactly when key `count()-1` holds a non-null value, returns that value, and throws for that key when it fails |
| Collections.GetIterator | src/PHPExtra/Type/Collection/AbstractCollection.php:90-97 | After the call the iterator is cached and valid. It walks the same copy from the same position the previous state would have, and a faithful iterator stays faithful |
| Collections.Current | src/PHPExtra/Type/Collection/AbstractCollection.php:185-188 | The element at the iterator position in its copy, or `null` past the end |
| Collections.Key | src/PHPExtra/Type/Collection/AbstractCollection.php:201-204 | The key at the iterator position in its copy, or `null` past the end |
| Collections.Valid | src/PHPExtra/Type/Collection/AbstractCollection.php:209-212 | True exactly when the iterator position holds an entry of its copy |
| Collections.Next | src/PHPExtra/Type/Collection/AbstractCollection.php:193-196 | Moves one entry on within the same copy, and stays put past the end. The array is unchanged |
| Collections.Rewind | src/PHPExtra/Type/Collection/AbstractCollection.php:217-220 | Moves the iterator back to position 0 of the copy it walks. The array is unchanged |
| Collections.Drain | src/PHPExtra/Type/Collection/AbstractCollection.php:229 | The loop of PHP `foreach` over an `\Iterator` visits the rest of the iterator's copy from its position, in order. It leaves the iterator at the end and the array unchanged |
| Collections.Foreach | src/PHPExtra/Type/Collection/AbstractCollection.php:228-229 | `foreach` visits every entry of the copy exactly once and in order. When the cached iterator is faithful, that is every entry of the array |
| Collections.Matching | src/PHPExtra/Type/Collection/AbstractCollection.php:229-233 | Keeps no more elements than it is given, and keeps every element on which the closure answers `true` |
| Collections.MatchingSound | src/PHPExtra/Type/Collection/AbstractCollection.php:230-232 | Every kept element is one on which the closure answered strictly `true` |
| Collections.MatchingSnoc | src/PHPExtra/Type/Collection/AbstractCollection.php:229-233 | Visiting one more entry adds its element at the end exactly when the closure accepts it |
| Collections.Filter | src/PHPExtra/Type/Collection/AbstractCollection.php:225-236 | Returns a new writable collection, keyed 0..m-1, of exactly the elements the closure strictly accepts, in the order visited. The source keeps its array and read-only flag, and its iterator is rewound to 0 |
| Collections.ApplyFrom | src/PHPExtra/Type/Collection/AbstractCollection.php:243-245 | From position `i` of the copy taken at the start, each entry whose closure writes gets the written value. Keys, order and the counter are unchanged. A read-only collection throws, unchanged, iff some remaining call writes |
| Collections.ForAll | src/PHPExtra/Type/Collection/AbstractCollection.php:241-247 | Calls the closure once per entry of the array as it stood at the call, in order. Writes are visible afterwards, and keys and order are unchanged. On a read-only collection it throws, unchanged, iff some call writes. It returns `$this` |
| Collections.Slice | src/PHPExtra/Type/Collection/AbstractCollection.php:252-263 | The values are `array_slice`'s, reindexed 0..m-1, in a new collection that takes the source's read-only flag and is no larger than the source |
| Collections.SortAsWritten | src/PHPExtra/Type/Collection/AbstractCollection.php:268-273 | As written: the array becomes the sorter's output, but the cached iterator stays valid over the pre-sort copy, at position 0 |
| Collections.Sort | src/PHPExtra/Type/Collection/AbstractCollection.php:268-273 | Corrected: the array becomes the sorter's output and the next walk visits exactly the sorted entries from the first |
| Proxies.New | src/PHPExtra/Type/Collection/CollectionProxy.php:23-26 | The constructor leaves the proxy holding exactly the given collection |
| Proxies.SetCollection | src/PHPExtra/Type/Collection/CollectionProxy.php:33-37 | After `setCollection(c)`, `getCollection()` is `c`, and the call returns the proxy |
| Proxies.Count | src/PHPExtra/Type/Collection/CollectionProxy.php:188-191 | The held collection's count, which is its number of entries |
| Proxies.IsEmpty | src/PHPExtra/Type/Collection/CollectionProxy.php:58-61 | The held collection's answer, true exactly when the count is 0 |
| Proxies.OffsetExists | src/PHPExtra/Type/Collection/CollectionProxy.php:156-159 | The held collection's answer: the key holds a non-null value |
| Proxies.OffsetGet | src/PHPExtra/Type/Collection/CollectionProxy.php:164-167 | The held collection's answer, which throws exactly when `offsetExists` is false |
| Proxies.First | src/PHPExtra/Type/Collection/CollectionProxy.php:83-86 | The held collection's answer: `null` when it is empty, otherwise `offsetGet(0)`, which succeeds exactly when `offsetExists(0)` |
| Proxies.Last | src/PHPExtra/Type/Collection/CollectionProxy.php:91-94 | The held collection's answer: `null` when it is empty, otherwise `offsetGet(count()-1)`, which succeeds exactly when that key is set |
| Proxies.Add | src/PHPExtra/Type/Collection/CollectionProxy.php:50-53 | Only the held collection changes, as its `add` changes it. A read-only error passes through with nothing changed. Success returns nothing, not the proxy |
| Proxies.OffsetSet | src/PHPExtra/Type/Collection/CollectionProxy.php:172-175 | Only the held collection changes, as its `offsetSet` changes it. A read-only error passes through. Success returns nothing, and the key then holds the value |
| Proxies.OffsetUnset | src/PHPExtra/Type/Collection/CollectionProxy.php:180-183 | Only the held collection changes, as its `offsetUnset` changes it. A read-only error passes through. Afterwards the key is not set |
| Proxies.ForAll | src/PHPExtra/Type/Collection/CollectionProxy.php:74-78 | Forwards. It fails exactly when the held `forAll` fails, leaving the proxy unchanged, and otherwise returns the proxy itself |
| Proxies.Sort | src/PHPExtra/Type/Collection/CollectionProxy.php:107-111 | Forwards to the collection's `sort` as written: the held array becomes the sorter's output and the held iterator is rewound to position 0, but it is not marked stale and keeps its copy of the unsorted entries. It returns the proxy itself |
| Proxies.SortIntended | src/PHPExtra/Type/Collection/CollectionProxy.php:107-111 | The same forwarding to the corrected `sort`: the held array becomes the sorter's output and the next walk visits exactly the sorted entries |
| Proxies.Filter | src/PHPExtra/Type/Collection/CollectionProxy.php:66-69 | Returns the collection the held `filter` builds, not a proxy. That is the accepted elements of the held collection when its iterator is faithful |
| Proxies.Slice | src/PHPExtra/Type/Collection/CollectionProxy.php:99-102 | Returns the collection the held `slice` builds, holding `array_slice` of the held array |
| Proxies.Current | src/PHPExtra/Type/Collection/CollectionProxy.php:116-119 | The held collection's current element, or `null` past the end. Only the held iterator is touched |
| Proxies.Key | src/PHPExtra/Type/Collection/CollectionProxy.php:132-135 | The held collection's current key, or `null` past the end |
| Proxies.Valid | src/PHPExtra/Type/Collection/CollectionProxy.php:140-143 | Whether the held iterator's position holds an entry |
| Proxies.Next | src/PHPExtra/Type/Collection/CollectionProxy.php:124-127 | Only the held iterator moves, by one entry within the same copy |
| Proxies.Rewind | src/PHPExtra/Type/Collection/CollectionProxy.php:148-151 | Only the held iterator moves, back to position 0 |
| Proxies.Foreach | src/PHPExtra/Type/Collection/CollectionProxy.php:116-151 | `foreach` over the proxy visits what a walk of the held collection visits, which is every entry when its iterator is faithful |
| Lazies.IsInitialized | src/PHPExtra/Type/Collection/LazyCollection.php:94-97 | Once true, `getCollection()` runs nothing and changes nothing. While false with an initializer present, the next `getCollection()` runs it once and sets the flag |
| Lazies.New | src/PHPExtra/Type/Collection/LazyCollection.php:27-33 | A new lazy collection is not initialized and keeps the given initializer. The held collection is empty and writable, so count is 0 and it is empty |
| Lazies.Initialize | src/PHPExtra/Type/Collection/LazyCollection.php:39-58 | Without an initializer, or once initialized, it does nothing. Otherwise it sets the flag and runs the initializer once. A non-collection result throws `UnexpectedType` with the held collection untouched. On a writable held collection, a collection result's elements are appended in order at consecutive keys. On a read-only held collection, a non-empty result throws the read-only exception and the held collection is unchanged |
| Lazies.GetCollection | src/PHPExtra/Type/Collection/LazyCollection.php:63-69 | Initializes first if not yet initialized, then returns the held collection. Once initialized, or without an initializer, it changes nothing. Only the first call with an initializer can throw, and the initializer has run at most once |
| Lazies.Through | src/PHPExtra/Type/Collection/LazyCollection.php:63-69 | Every inherited operation calls the overriding `getCollection` first. Its exception ends the operation; otherwise the proxy's method runs on the initialized state |
| Lazies.SetCollection | src/PHPExtra/Type/Collection/CollectionProxy.php:33-37 | The inherited `setCollection` replaces the held collection without initializing |
| Lazies.Count | src/PHPExtra/Type/Collection/CollectionProxy.php:188-191 | Initializes, then gives the held collection's number of entries. It throws exactly when initialization throws |
| Lazies.IsEmpty | src/PHPExtra/Type/Collection/CollectionProxy.php:58-61 | Initializes, then says whether the held collection has no entries |
| Lazies.OffsetExists | src/PHPExtra/Type/Collection/CollectionProxy.php:156-159 | Initializes, then gives the held collection's `offsetExists` |
| Lazies.OffsetGet | src/PHPExtra/Type/Collection/CollectionProxy.php:164-167 | Initializes, then gives the held collection's `offsetGet`. An initializer exception takes precedence |
| Lazies.First | src/PHPExtra/Type/Collection/CollectionProxy.php:83-86 | Initializes, then gives the held collection's `first`, which on a non-empty collection succeeds exactly when key 0 is set |
| Lazies.Last | src/PHPExtra/Type/Collection/CollectionProxy.php:91-94 | Initializes, then gives the held collection's `last`, which on a non-empty collection succeeds exactly when key `count()-1` is set |
| Lazies.Add | src/PHPExtra/Type/Collection/CollectionProxy.php:50-53 | Initializes, then appends to the held collection when it is writable and throws the read-only error otherwise; an initializer exception takes precedence |
| Lazies.OffsetSet | src/PHPExtra/Type/Collection/CollectionProxy.php:172-175 | Initializes, then on a writable held collection the key holds the value and every other key is unchanged. Without a key, the value is appended at the next free key, as `add` does. A read-only held collection throws, and an initializer exception ends the call |
| Lazies.OffsetUnset | src/PHPExtra/Type/Collection/CollectionProxy.php:180-183 | Initializes, then on a writable held collection the key is unset and every other key is unchanged; a read-only one throws |
| Lazies.ForAll | src/PHPExtra/Type/Collection/CollectionProxy.php:74-78 | Initializes, then runs the proxy's `forAll`: on a writable held collection every entry gets what the closure writes, keys unchanged, and it returns itself |
| Lazies.Filter | src/PHPExtra/Type/Collection/CollectionProxy.php:66-69 | Initializes, then returns a new collection keyed 0..n-1 holding the elements that the held collection's walk visits and the closure accepts. That is every accepted entry when the held iterator is faithful. An initializer exception ends the call |
| Lazies.Slice | src/PHPExtra/Type/Collection/CollectionProxy.php:99-102 | Initializes, then returns a new collection holding `array_slice` of the held array, keyed 0..m-1, with the held collection's read-only flag and no iterator. The lazy state is only initialized. An initializer exception ends the call |
| Lazies.Sort | src/PHPExtra/Type/Collection/CollectionProxy.php:107-111 | Initializes, then forwards to the collection's `sort` as written: the held array becomes the sorter's output, and the held iterator is rewound but keeps its copy of the unsorted entries. It returns itself |
| Lazies.SortIntended | src/PHPExtra/Type/Collection/CollectionProxy.php:107-111 | Initializes, then forwards to the corrected `sort`: the held array becomes the sorter's output and a walk of it visits exactly the sorted entries |
| Lazies.Current | src/PHPExtra/Type/Collection/CollectionProxy.php:116-119 | Initializes, then gives the held collection's current element, `null` past the end |
| Lazies.Key | src/PHPExtra/Type/Collection/CollectionProxy.php:132-135 | Initializes, then gives the held collection's current key: the key at the iterator position |
| Lazies.Valid | src/PHPExtra/Type/Collection/CollectionProxy.php:140-143 | Initializes, then says whether the held iterator's position holds an entry |
| Lazies.Next | src/PHPExtra/Type/Collection/CollectionProxy.php:124-127 | Initializes, then moves the held iterator one entry on |
| Lazies.Rewind | src/PHPExtra/Type/Collection/CollectionProxy.php:148-151 | Initializes, then moves the held iterator back to position 0 |
| Lazies.Foreach | src/PHPExtra/Type/Collection/CollectionProxy.php:116-151 | The lazy collection is an `\Iterator`, so `foreach` drives the inherited proxy methods `rewind`, `valid`, `current`, `key` and `next`. The first of them initializes it, and the loop visits the held collection's walk. That is every entry when the held iterator is faithful, and an initializer exception ends it |
| Lazies.Serialize | src/PHPExtra/Type/Collection/LazyCollection.php:102-105 | Forces initialization when there is an initializer, then stores the held collection's elements in order. It fails exactly when initialization fails |
| Lazies.Unserialize | src/PHPExtra/Type/Collection/LazyCollection.php:110-116 | Re-runs the constructor with an initializer returning the stored elements: not initialized, with an empty held collection |
| Laws.ReadOnlyGuard | src/PHPExtra/Type/Collection/AbstractCollection.php:50-164 | With the flag set, `add`, `offsetSet` and `offsetUnset` throw and change nothing. Clearing the flag again makes all three succeed |
| Laws.SetWithoutKeyAppends | src/PHPExtra/Type/Collection/AbstractCollection.php:144-145 | `offsetSet(null, v)` stores `v` at the next free key and appends that key to the key order |
| Laws.UnsetUndoesSetOfNewKey | src/PHPExtra/Type/Collection/AbstractCollection.php:138-164 | `offsetUnset(k)` right after `offsetSet(k, v)` on an absent key restores every lookup and the exact entry sequence. The next free key stays past `k` |
| Laws.FirstLastOfDense | src/PHPExtra/Type/Collection/AbstractCollection.php:169-180 | On a non-empty collection keyed 0..n-1, `first`/`last` are the first/last elements in order, or `OutOfRangeException` when that element is `null` |
| Laws.WritesRestartIteration | src/PHPExtra/Type/Collection/AbstractCollection.php:83-97 | After `add`, `offsetSet` or `offsetUnset`, a walk covers exactly the updated array, and `current()` is its first entry |
| Laws.OperationsKeepIterationFresh | src/PHPExtra/Type/Collection/AbstractCollection.php:77-247 | Starting from a faithful iterator, every operation except the as-written `sort` leaves the iterator faithful to the array. This covers the writes, the iterator calls, `foreach`, `filter`, `forAll` and the corrected `sort` |
| Laws.ProxyHoldsLastCollection | src/PHPExtra/Type/Collection/CollectionProxy.php:23-45 | `getCollection()` returns the collection most recently given to the constructor or `setCollection`, and the proxy holds nothing else |
| Laws.ProxyPropagatesReadOnly | src/PHPExtra/Type/Collection/CollectionProxy.php:50-183 | A proxy over a read-only collection throws the read-only error from `add`, `offsetSet` and `offsetUnset`, unchanged |
| Laws.GetCollectionSettles | src/PHPExtra/Type/Collection/LazyCollection.php:63-69 | A second `getCollection()` succeeds and changes nothing, whether the first succeeded or threw |
| Laws.FirstAccessPopulates | src/PHPExtra/Type/Collection/LazyCollection.php:39-58 | The first access on a new lazy collection runs the initializer once. Afterwards it is initialized and holds the produced elements in order at keys 0..n-1 |
| Laws.InitializerRunsAtMostOnce | src/PHPExtra/Type/Collection/LazyCollection.php:39-69 | Across any two inherited operations and a further `initialize()`, the initializer runs at most once, and exactly once when there is one |
| Laws.FailOnce | src/PHPExtra/Type/Collection/LazyCollection.php:39-49 | A non-collection result throws on the first access only. The collection is then initialized and empty, and `count()` succeeds with 0 |
| Laws.NoInitializerStaysEmpty | src/PHPExtra/Type/Collection/LazyCollection.php:27-41 | Without an initializer, `initialize()` changes nothing, count is 0, the collection is empty, and no operation marks it initialized |
| Laws.SerializeRoundTrip | src/PHPExtra/Type/Collection/LazyCollection.php:102-116 | Serializing forces initialization. The unserialized collection, once accessed, holds the same elements in order at keys 0..n-1, and its count matches |
| Scenarios.Seven | tests/fixtures/PHPExtra/Collection/CollectionTest.php:15-29 | The shared fixture holds "test1".."test7" at keys 0..6 |
| Scenarios.EmptyCollection | tests/fixtures/PHPExtra/Collection/CollectionTest.php:31-37 | A new collection is empty with count 0 |
| Scenarios.EmptyIteratorNull | tests/fixtures/PHPExtra/Collection/CollectionTest.php:139-144 | `current()` on a new collection gives `null` |
| Scenarios.EmptyFirstLastNull | tests/fixtures/PHPExtra/Collection/CollectionTest.php:364-376 | `first()` and `last()` on a new collection give `null` |
| Scenarios.AddOne | tests/fixtures/PHPExtra/Collection/CollectionTest.php:39-47 | After one `add`: not empty, count 1 |
| Scenarios.AddOneOffsets | tests/fixtures/PHPExtra/Collection/CollectionTest.php:58-92 | After one `add`: key 0 set, key 1 unset, `offsetGet(0)` gives the element and `offsetGet(15)` throws |
| Scenarios.SetThenUnsetFifteen | tests/fixtures/PHPExtra/Collection/CollectionTest.php:94-109 | `offsetSet(15, x)` makes key 15 readable, and unsetting it removes it |
| Scenarios.ReadOnlyFlag | tests/fixtures/PHPExtra/Collection/CollectionTest.php:111-118 | A new collection is not read-only; after `setReadOnly(true)` it is |
| Scenarios.ReadOnlyWrites | tests/fixtures/PHPExtra/Collection/CollectionTest.php:161-180 | `add` and `unset` on a read-only collection throw |
| Scenarios.IteratorWalk | tests/fixtures/PHPExtra/Collection/CollectionTest.php:120-137 | `current` gives test1, test2 and test3 across `next` calls, then test1 again after `rewind` |
| Scenarios.IteratorPastEnd | tests/fixtures/PHPExtra/Collection/CollectionTest.php:146-154 | `current` past the only entry is `null` |
| Scenarios.SliceTable | tests/fixtures/PHPExtra/Collection/CollectionTest.php:185-263 | The seven slices of the tests, from (0,2) giving test1,test2 to (7,-2) giving nothing |
| Scenarios.OddTestsMatch | tests/fixtures/PHPExtra/Collection/CollectionTest.php:307-321 | The test's closure accepts test1, test3 and test5 of the seven entries |
| Scenarios.FilterOddTests | tests/fixtures/PHPExtra/Collection/CollectionTest.php:305-330 | The filtered collection has count 3 and holds test1, test3 and test5 at keys 0, 1 and 2 |
| Scenarios.ForAllSetsEveryKey | tests/fixtures/PHPExtra/Collection/CollectionTest.php:335-346 | A closure writing "1" at each visited key leaves keys 0, 2 and 6 holding "1" |
| Scenarios.FirstLastOfSeven | tests/fixtures/PHPExtra/Collection/CollectionTest.php:351-362 | `first` and `last` of the fixture are test1 and test7 |
| Scenarios.FirstOnSparseCollection | src/PHPExtra/Type/Collection/AbstractCollection.php:169-172 | With key 0 unset, `first` throws although one entry (test2) remains |
| Scenarios.SortLeavesStaleWalk | src/PHPExtra/Type/Collection/AbstractCollection.php:268-273 | After the as-written `sort` with a reversing sorter, `foreach` and `current` still see the old order. After the corrected `sort` they see the new order |
| Scenarios.ProxyOverReadOnly | src/PHPExtra/Type/Collection/CollectionProxy.php:50-53 | `add` on a proxy over a read-only collection throws the read-only error |
| Scenarios.ThreeInitialized | tests/fixtures/PHPExtra/Collection/LazyCollectionTest.php:15-22 | The test's lazy collection, once accessed, holds test1..test3 at keys 0..2 |
| Scenarios.LazyWithoutInitializer | tests/fixtures/PHPExtra/Collection/LazyCollectionTest.php:24-30 | A lazy collection without an initializer is empty with count 0 |
| Scenarios.LazyCountInitializes | tests/fixtures/PHPExtra/Collection/LazyCollectionTest.php:58-61 | The first `count()` initializes and gives 3 |
| Scenarios.LazyOffsetGetInitializes | tests/fixtures/PHPExtra/Collection/LazyCollectionTest.php:66-69 | The first `offsetGet(1)` gives test2 |
| Scenarios.LazyOffsetExistsInitializes | tests/fixtures/PHPExtra/Collection/LazyCollectionTest.php:74-77 | The first `offsetExists(1)` is true |
| Scenarios.LazyIsEmptyInitializes | tests/fixtures/PHPExtra/Collection/LazyCollectionTest.php:82-85 | The first `isEmpty()` is false |
| Scenarios.LazyWrongType | tests/fixtures/PHPExtra/Collection/LazyCollectionTest.php:49-53 | An initializer returning a string makes `count()` throw |
| Scenarios.LazyForeach | tests/fixtures/PHPExtra/Collection/LazyCollectionTest.php:98-106 | `foreach` over the lazy collection visits three entries |
| Scenarios.LazySerializeRoundTrip | tests/fixtures/PHPExtra/Collection/LazyCollectionTest.php:35-44 | After the round trip, count is 3 and key 0 holds test1 |
| Scenarios.LazyUnsetThenForeach | tests/fixtures/PHPExtra/Collection/LazyCollectionTest.php:125-141 | Unsetting key 0 initializes first, and the following `foreach` visits the two remaining entries |

## Left out

- **Collection key space.** Keys are non-negative integers only.
  - String keys, numeric-string coercion and negative explicit keys are not modelled.
  - PHP's loose `==` comparisons in the tests are not modelled either.
- **Closures.** `filter` closures are pure functions of (element, key). Their result
  is strictly `true`, `false`, or some other value, and only strict `true` keeps.
  `forAll` closures are restricted to "optionally `offsetSet` the visited key".
  Arbitrary re-entrant mutation through the third argument is not modelled.
- **`SorterInterface`.** It is external. A sorter is any function from array to array,
  and `sort` replaces the array with its output after `rewind`.
- **`slice` on an inner collection.** The `$this->entities instanceof
  CollectionInterface` branch of `slice` (AbstractCollection.php:254-255) is not
  modelled. Only a sorter that returns a collection object could reach it.
- **`UnknownType`.** It is not part of this model. An initializer result is a
  collection with its elements in iteration order, or "not a collection".
- **The initializer.** It is represented by what it returns. It is assumed
  deterministic and free of side effects.
- **Serialization.** The PHP serialization byte format, the concrete `Collection`
  class's own serialization and nested collections are not modelled. A serialized
  lazy collection is its element sequence.
- **Proxies.** The held collection is an array-backed `AbstractCollection`.
  `setCollection` (CollectionProxy.php:33-37) accepts any `CollectionInterface`; a
  proxy or lazy collection held by a proxy, whose overrides would then run, is not
  modelled.
- **Object identity.** PHP objects are references, and the model has no aliasing
  between them. For example, an inner collection given to a proxy and also changed
  elsewhere is not modelled.
  - The lazy `unserialize` re-runs the constructor on the same object. It is modelled
    as producing a new value.
- **Declarations and hooks.**
  - The deprecated `getReadOnly` (AbstractCollection.php:69-72) is not modelled.
  - The `Countable`/`ArrayAccess` language hooks (`count($c)`, `$c[k]`, `isset`,
    `unset`) are not modelled separately. They are the methods above.
  - `CollectionInterface` is declarations only.
- **`setInitializer`/`getInitializer`.** They are not modelled as separate operations.
  The constructor's initializer is a field of the lazy state.
- **`getIterator`.** `AbstractCollection::getIterator` is modelled as the iterator
  refresh inside every protocol call; a caller holding the returned `\ArrayIterator`
  object is not modelled. `LazyCollection::getIterator` (LazyCollection.php:122-125)
  returns the object itself and has no member: PHP's `foreach` over an `\Iterator`
  does not call it.
- **Integer width.** Keys and the next free key are unbounded `nat`s. PHP array keys
  are 64-bit, and `$a[] = v` (AbstractCollection.php:82, reached from 145 through
  `add`) fails once the next free key would pass `PHP_INT_MAX`; that failure is not
  modelled.
- Lazies.Foreach: PHP's `foreach` calls `getCollection()` once per protocol call. The
  model makes one such call for the whole loop. Only the first call can initialize
  (`Laws.GetCollectionSettles`), so the visited entries are the same.

## Findings

| source | as written | input that shows it | evidently intended | confidence | as-written member | corrected member |
|---|---|---|---|---|---|---|
| src/PHPExtra/Type/Collection/AbstractCollection.php:268-273 | `sort` rewinds and then replaces `$entities` with the sorter's output. It leaves `isIteratorValid` true, so the cached `\ArrayIterator`, a copy of the pre-sort array, is reused. The proxy and the lazy collection forward to it unchanged (`Proxies.Sort`, `Lazies.Sort`) | `new Collection(['test1','test2'])`, then `sort` with a sorter that reverses the order: a following `foreach` visits test1, test2 and `current()` is test1, while the array holds test2 first (`Scenarios.SortLeavesStaleWalk`) | Mark the iterator stale like every other write, so that the next walk covers the sorted array. The comment on `regenerateIterator` (line 276) says the iterator is regenerated after any change of the array | medium, not executed | Collections.SortAsWritten | Collections.Sort |

=== FILE: collection.dfy ===
/** The array-backed collection (`AbstractCollection`): an ordered PHP array of
    elements, a read-only flag, and a cached `\ArrayIterator` over a copy of the array
    that is regenerated only when it has been marked stale. */
module Collections {
  import opened Outcomes
  import opened PhpArrays

  /** A value stored in a collection: PHP `null`, or an element. */
  datatype Value<T> = Null | Val(item: T)

  /** The cached `\ArrayIterator`: the copy of the entries it was built over, and its
      position in that copy. */
  datatype Cursor<T> = Cursor(items: seq<Entry<Value<T>>>, pos: nat)

  datatype Collection<T> = Collection(
    entities: PhpArray<Value<T>>,
    readOnly: bool,
    iter: Option<Cursor<T>>,
    iterValid: bool)

  /** What a filter closure returns; only a strict boolean `true` keeps an element. */
  datatype Answer = Yes | No | NonBoolean(truthy: bool)

  /** A filter closure, called with an element and its key. */
  type Selector<!T> = (Value<T>, nat) -> Answer

  /** A `forAll` closure restricted to updating the entry it is called on: given the
      key and the element, `Some(v)` means it calls `offsetSet(key, v)`, `None` that it
      leaves the collection alone. */
  type Update<!T> = (nat, Value<T>) -> Option<Value<T>>

  /** The external sort strategy: it receives the whole array and returns the new one. */
  type Sorter<!T> = PhpArray<Value<T>> -> PhpArray<Value<T>>

  // ---------------------------------------------------------------------------
  // Iterator bookkeeping

  /** The next iterator call builds a new `\ArrayIterator`. */
  predicate Stale<T>(c: Collection<T>) {
    c.iter.None? || !c.iterValid
  }

  /** The entries the next iterator call walks. */
  function Snapshot<T>(c: Collection<T>): seq<Entry<Value<T>>> {
    if Stale(c) then c.entities.entries else c.iter.value.items
  }

  /** The iterator position the next iterator call sees. */
  function Position<T>(c: Collection<T>): nat {
    if Stale(c) then 0 else c.iter.value.pos
  }

  /** The iterator, whenever it is reused, walks exactly the current entries. */
  ghost predicate Fresh<T>(c: Collection<T>) {
    Snapshot(c) == c.entities.entries
  }

  /** How many more steps a walk from here can take. */
  function Remaining<T>(c: Collection<T>): nat {
    (if Position(c) < |Snapshot(c)| then |Snapshot(c)| - Position(c) else 0)
    + (if Stale(c) then 1 else 0)
  }

  /** `count`: the number of entries in the map, so zero exactly when it is empty. */
  function Count<T>(c: Collection<T>): (r: nat)
    ensures r == |c.entities.entries|
    ensures r == 0 <==> c.entities.entries == []
  {
    |c.entities.entries|
  }

  /** `count` is the number of distinct keys in use. */
  lemma CountIsKeyCount<T>(c: Collection<T>)
    ensures Count(c) == |KeySet(c.entities.entries)|
  {
    KeySetSize(c.entities.entries);
  }

  // ---------------------------------------------------------------------------
  // Construction and the read-only flag

  /** `new Collection()`. */
  function Empty<T>(): (c: Collection<T>)
    ensures c.entities.entries == [] && c.entities.nextFree == 0
    ensures !c.readOnly && c.iter.None? && !c.iterValid
  {
    Collection(EmptyArray(), false, None, false)
  }

  /** The entries `add` creates for `items` when the next free key is `from`. */
  function Appended<T>(from: nat, items: seq<Value<T>>): (es: seq<Entry<Value<T>>>)
    ensures |es| == |items|
  {
    seq(|items|, i requires 0 <= i < |items| => Entry(from + i, items[i]))
  }

  lemma AppendedCons<T>(from: nat, items: seq<Value<T>>)
    requires |items| > 0
    ensures Appended(from, items) == [Entry(from, items[0])] + Appended(from + 1, items[1..])
  {
  }

  /** Appending the first item and then the rest is appending them all. */
  lemma AppendedStep<T>(es: seq<Entry<Value<T>>>, from: nat, items: seq<Value<T>>)
    requires |items| > 0
    ensures (es + [Entry(from, items[0])]) + Appended(from + 1, items[1..]) == es + Appended(from, items)
  {
    AppendedCons(from, items);
  }

  /** `add` each of `items` in turn, stopping at the first exception. */
  function AddAll<T>(c: Collection<T>, items: seq<Value<T>>): (r: Step<Collection<T>, Ret>)
    ensures c.readOnly && |items| > 0 ==> r == Step(c, Err(ReadOnlyViolation))
    ensures !c.readOnly || |items| == 0 ==> r.result == Ok(Self)
    ensures r.result.Ok? ==>
              && r.state.entities.entries == c.entities.entries + Appended(c.entities.nextFree, items)
              && r.state.entities.nextFree == c.entities.nextFree + |items|
              && r.state.readOnly == c.readOnly && r.state.iter == c.iter
              && r.state.iterValid == (c.iterValid && |items| == 0)
    decreases |items|
  {
    if |items| == 0 then Step(c, Ok(Self))
    else
      var s := Add(c, items[0]);
      if s.result.Err? then s
      else
        var r := AddAll(s.state, items[1..]);
        assert s.state.entities.entries == c.entities.entries + [Entry(c.entities.nextFree, items[0])];
        AppendedStep(c.entities.entries, c.entities.nextFree, items);
        r
  }

  /** `new Collection($items)`: the constructor adds each item in order, so the keys are
      0..n-1 whatever the input was. */
  function Create<T>(items: seq<Value<T>>): (c: Collection<T>)
    ensures Values(c.entities) == items && Dense(c.entities)
    ensures !c.readOnly && c.iter.None? && !c.iterValid
  {
    var c := AddAll(Empty(), items).state;
    assert Values(c.entities) == items;
    c
  }

  /** `setReadOnly`: never itself blocked by the flag; touches nothing else. */
  function SetReadOnly<T>(c: Collection<T>, flag: bool): (r: Collection<T>)
    ensures r.readOnly == flag
    ensures r.entities == c.entities && Snapshot(r) == Snapshot(c) && Position(r) == Position(c)
  {
    c.(readOnly := flag)
  }

  /** `isReadOnly`: the flag that decides whether writes throw. */
  function IsReadOnly<T>(c: Collection<T>): (r: bool)
    ensures r <==> Add(c, Null) == Step(c, Err(ReadOnlyViolation))
    ensures r <==> OffsetUnset(c, 0).result == Err(ReadOnlyViolation)
  {
    c.readOnly
  }

  // ---------------------------------------------------------------------------
  // Map access

  /** `add`: stores the element at the next free key, after every existing entry, and
      marks the iterator stale; throws on a read-only collection. */
  function Add<T>(c: Collection<T>, v: Value<T>): (r: Step<Collection<T>, Ret>)
    ensures c.readOnly ==> r == Step(c, Err(ReadOnlyViolation))
    ensures !c.readOnly ==>
              && r.result == Ok(Self)
              && r.state.entities.entries == c.entities.entries + [Entry(c.entities.nextFree, v)]
              && r.state.entities.nextFree == c.entities.nextFree + 1
              && !HasKey(c.entities, c.entities.nextFree)
              && Lookup(r.state.entities, c.entities.nextFree) == Some(v)
              && (forall k :: k != c.entities.nextFree ==> Lookup(r.state.entities, k) == Lookup(c.entities, k))
              && Values(r.state.entities) == Values(c.entities) + [v]
              && Count(r.state) == Count(c) + 1
              && r.state.readOnly == c.readOnly && Stale(r.state)
  {
    if c.readOnly then Step(c, Err(ReadOnlyViolation))
    else
      var r := c.(entities := Push(c.entities, v), iterValid := false);
      assert r.entities.entries[|c.entities.entries|] == Entry(c.entities.nextFree, v);
      AppendKeepsOthers(c.entities, c.entities.nextFree, r.entities);
      Step(r, Ok(Self))
  }

  /** `isEmpty`. */
  function IsEmpty<T>(c: Collection<T>): (r: bool)
    ensures r <==> c.entities.entries == []
  {
    Count(c) == 0
  }

  /** `offsetExists` is `isset`: the key is present and does not hold `null`. */
  function OffsetExists<T>(c: Collection<T>, k: nat): (r: bool)
    ensures r <==> exists i :: 0 <= i < |c.entities.entries| && c.entities.entries[i].key == k
                                && c.entities.entries[i].value.Val?
  {
    var found := Lookup(c.entities, k);
    found.Some? && found.value.Val?
  }

  /** `offsetGet`: the stored element, or `OutOfRangeException` exactly when
      `offsetExists` is false. */
  function OffsetGet<T>(c: Collection<T>, k: nat): (r: Result<Value<T>>)
    ensures r.Err? <==> !OffsetExists(c, k)
    ensures r.Err? ==> r.error == IndexOutOfRange(k)
    ensures r.Ok? ==> r.value.Val? && Lookup(c.entities, k) == Some(r.value)
  {
    if !OffsetExists(c, k) then Err(IndexOutOfRange(k))
    else Ok(Lookup(c.entities, k).value)
  }

  /** `offsetSet`: a missing key means `add`; otherwise the key is written (in place if
      present, appended last with the next free key moved past it if not); throws on a
      read-only collection. */
  function OffsetSet<T>(c: Collection<T>, k: Option<nat>, v: Value<T>): (r: Step<Collection<T>, Ret>)
    ensures c.readOnly ==> r == Step(c, Err(ReadOnlyViolation))
    ensures k.None? ==> r == Add(c, v)
    ensures k.Some? && !c.readOnly ==>
              && r.result == Ok(Self)
              && Lookup(r.state.entities, k.value) == Some(v)
              && (forall k' :: k' != k.value ==> Lookup(r.state.entities, k') == Lookup(c.entities, k'))
              && OffsetGet(r.state, k.value) == (if v.Val? then Ok(v) else Err(IndexOutOfRange(k.value)))
              && (HasKey(c.entities, k.value) ==>
                    Keys(r.state.entities) == Keys(c.entities) && r.state.entities.nextFree == c.entities.nextFree)
              && (!HasKey(c.entities, k.value) ==>
                    && Keys(r.state.entities) == Keys(c.entities) + [k.value]
                    && r.state.entities.nextFree ==
                         if k.value < c.entities.nextFree then c.entities.nextFree else k.value + 1)
              && (forall j :: 0 <= j < |c.entities.entries| && c.entities.entries[j].key == k.value ==>
                    r.state.entities.entries == c.entities.entries[j := Entry(k.value, v)])
              && r.state.readOnly == c.readOnly && Stale(r.state)
  {
    if c.readOnly then Step(c, Err(ReadOnlyViolation))
    else match k
      case None => Add(c, v)
      case Some(key) =>
        var r := c.(entities := Put(c.entities, key, v), iterValid := false);
        Step(r, Ok(Self))
  }

  /** `offsetUnset`: removes the key (a silent no-op on the map when it is absent),
      never lowers the next free key, and marks the iterator stale; throws on a
      read-only collection. */
  function OffsetUnset<T>(c: Collection<T>, k: nat): (r: Step<Collection<T>, Ret>)
    ensures c.readOnly ==> r == Step(c, Err(ReadOnlyViolation))
    ensures !c.readOnly ==>
              && r.result == Ok(Void)
              && !OffsetExists(r.state, k) && !HasKey(r.state.entities, k)
              && (forall k' :: k' != k ==> Lookup(r.state.entities, k') == Lookup(c.entities, k'))
              && (HasKey(c.entities, k) ==> Count(r.state) + 1 == Count(c))
              && (!HasKey(c.entities, k) ==> r.state.entities == c.entities)
              && r.state.entities.nextFree == c.entities.nextFree
              && r.state.readOnly == c.readOnly && Stale(r.state)
    ensures !c.readOnly ==>
              forall j :: 0 <= j < |c.entities.entries| && c.entities.entries[j].key == k ==>
                r.state.entities.entries == c.entities.entries[..j] + c.entities.entries[j + 1..]
  {
    if c.readOnly then Step(c, Err(ReadOnlyViolation))
    else Step(c.(entities := Remove(c.entities, k), iterValid := false), Ok(Void))
  }

  /** `first`: `null` on an empty collection, otherwise whatever `offsetGet(0)` gives. It
      addresses the literal key 0, not the first entry in enumeration order. */
  function First<T>(c: Collection<T>): (r: Result<Value<T>>)
    ensures c.entities.entries == [] ==> r == Ok(Null)
    ensures c.entities.entries != [] ==>
              && (r.Ok? <==> Lookup(c.entities, 0).Some? && Lookup(c.entities, 0).value.Val?)
              && (r.Ok? ==> Lookup(c.entities, 0) == Some(r.value))
              && (r.Err? ==> r.error == IndexOutOfRange(0))
  {
    if Count(c) > 0 then OffsetGet(c, 0) else Ok(Null)
  }

  /** `last`: `null` on an empty collection, otherwise whatever `offsetGet(count() - 1)`
      gives. */
  function Last<T>(c: Collection<T>): (r: Result<Value<T>>)
    ensures c.entities.entries == [] ==> r == Ok(Null)
    ensures c.entities.entries != [] ==>
              var k := |c.entities.entries| - 1;
              && (r.Ok? <==> Lookup(c.entities, k).Some? && Lookup(c.entities, k).value.Val?)
              && (r.Ok? ==> Lookup(c.entities, k) == Some(r.value))
              && (r.Err? ==> r.error == IndexOutOfRange(k))
  {
    if Count(c) > 0 then OffsetGet(c, Count(c) - 1) else Ok(Null)
  }

  // ---------------------------------------------------------------------------
  // The external-iterator protocol

  /** `getIterator`: reuses the cached iterator unless it is missing or stale, in which
      case it builds one over a copy of the current entries. */
  function GetIterator<T>(c: Collection<T>): (r: Collection<T>)
    ensures !Stale(r) && Snapshot(r) == Snapshot(c) && Position(r) == Position(c)
    ensures r.entities == c.entities && r.readOnly == c.readOnly
    ensures Fresh(c) ==> Fresh(r)
  {
    if Stale(c) then c.(iter := Some(Cursor(c.entities.entries, 0)), iterValid := true)
    else c
  }

  /** `current`: the element at the iterator position, or `null` past the end. */
  function Current<T>(c: Collection<T>): (r: (Collection<T>, Value<T>))
    ensures r.0 == GetIterator(c)
    ensures Position(c) < |Snapshot(c)| ==> r.1 == Snapshot(c)[Position(c)].value
    ensures Position(c) >= |Snapshot(c)| ==> r.1 == Null
  {
    var g := GetIterator(c);
    var cur := g.iter.value;
    (g, if cur.pos < |cur.items| then cur.items[cur.pos].value else Null)
  }

  /** `key`: the map key at the iterator position, or `null` past the end. */
  function Key<T>(c: Collection<T>): (r: (Collection<T>, Option<nat>))
    ensures r.0 == GetIterator(c)
    ensures Position(c) < |Snapshot(c)| ==> r.1 == Some(Snapshot(c)[Position(c)].key)
    ensures Position(c) >= |Snapshot(c)| ==> r.1 == None
  {
    var g := GetIterator(c);
    var cur := g.iter.value;
    (g, if cur.pos < |cur.items| then Some(cur.items[cur.pos].key) else None)
  }

  /** `valid`: whether the iterator position holds an entry. */
  function Valid<T>(c: Collection<T>): (r: (Collection<T>, bool))
    ensures r.0 == GetIterator(c)
    ensures r.1 <==> Position(c) < |Snapshot(c)|
  {
    var g := GetIterator(c);
    (g, g.iter.value.pos < |g.iter.value.items|)
  }

  /** `next`: moves one entry on; an iterator already past the end stays there. */
  function Next<T>(c: Collection<T>): (r: Collection<T>)
    ensures !Stale(r) && Snapshot(r) == Snapshot(c)
    ensures Position(r) == if Position(c) < |Snapshot(c)| then Position(c) + 1 else Position(c)
    ensures r.entities == c.entities && r.readOnly == c.readOnly
    ensures Fresh(c) ==> Fresh(r)
  {
    var g := GetIterator(c);
    var cur := g.iter.value;
    g.(iter := Some(cur.(pos := if cur.pos < |cur.items| then cur.pos + 1 else cur.pos)))
  }

  /** `rewind`: back to the first entry of the (possibly regenerated) iterator. */
  function Rewind<T>(c: Collection<T>): (r: Collection<T>)
    ensures !Stale(r) && Snapshot(r) == Snapshot(c) && Position(r) == 0
    ensures r.entities == c.entities && r.readOnly == c.readOnly
    ensures Fresh(c) ==> Fresh(r)
  {
    var g := GetIterator(c);
    g.(iter := Some(g.iter.value.(pos := 0)))
  }

  /** The body of PHP's `foreach` over an `\Iterator` once it has rewound: while
      `valid()`, read `current()` and `key()`, then `next()`. Yields the visited
      entries. */
  function Drain<T>(c: Collection<T>): (r: (Collection<T>, seq<Entry<Value<T>>>))
    ensures Position(c) <= |Snapshot(c)| ==> r.1 == Snapshot(c)[Position(c)..]
    ensures Position(c) > |Snapshot(c)| ==> r.1 == []
    ensures !Stale(r.0) && Snapshot(r.0) == Snapshot(c)
    ensures Position(r.0) == if Position(c) < |Snapshot(c)| then |Snapshot(c)| else Position(c)
    ensures r.0.entities == c.entities && r.0.readOnly == c.readOnly
    ensures Fresh(c) ==> Fresh(r.0)
    decreases Remaining(c)
  {
    var (c1, more) := Valid(c);
    if !more then (c1, [])
    else
      var (c2, v) := Current(c1);
      var (c3, k) := Key(c2);
      var c4 := Next(c3);
      var (c5, rest) := Drain(c4);
      (c5, [Entry(k.value, v)] + rest)
  }

  /** PHP `foreach ($collection as $key => $element)`: rewinds, then drains. Visits
      every entry of the snapshot exactly once, in order, and leaves the iterator past
      the end (`valid()` false). */
  function Foreach<T>(c: Collection<T>): (r: (Collection<T>, seq<Entry<Value<T>>>))
    ensures r.1 == Snapshot(c)
    ensures Fresh(c) ==> r.1 == c.entities.entries && Fresh(r.0)
    ensures !Stale(r.0) && Snapshot(r.0) == Snapshot(c) && Position(r.0) == |Snapshot(c)|
    ensures r.0.entities == c.entities && r.0.readOnly == c.readOnly
  {
    Drain(Rewind(c))
  }

  // ---------------------------------------------------------------------------
  // Bulk operations

  /** The elements of `es`, in order, on which the closure answers a strict `true`. */
  function Matching<T>(es: seq<Entry<Value<T>>>, p: Selector<T>): (r: seq<Value<T>>)
    ensures |r| <= |es|
    ensures forall i :: 0 <= i < |es| && p(es[i].value, es[i].key) == Yes ==> es[i].value in r
  {
    if |es| == 0 then []
    else
      var rest := Matching(es[1..], p);
      assert forall i :: 1 <= i < |es| ==> es[i] == es[1..][i - 1];
      if p(es[0].value, es[0].key) == Yes then [es[0].value] + rest else rest
  }

  /** Everything `Matching` keeps is an element the closure accepted. */
  lemma {:induction false} MatchingSound<T>(es: seq<Entry<Value<T>>>, p: Selector<T>, j: nat)
    requires j < |Matching(es, p)|
    ensures exists i :: 0 <= i < |es| && es[i].value == Matching(es, p)[j] && p(es[i].value, es[i].key) == Yes
  {
    var rest := Matching(es[1..], p);
    if p(es[0].value, es[0].key) == Yes && j == 0 {
      assert es[0].value == Matching(es, p)[0];
    } else {
      var j' := if p(es[0].value, es[0].key) == Yes then j - 1 else j;
      assert Matching(es, p)[j] == rest[j'];
      MatchingSound(es[1..], p, j');
      var i :| 0 <= i < |es[1..]| && es[1..][i].value == rest[j'] && p(es[1..][i].value, es[1..][i].key) == Yes;
      assert es[i + 1] == es[1..][i];
    }
  }

  /** `Matching` grows at the end as a walk does: one more visited entry adds its element
      exactly when the closure accepts it. */
  lemma {:induction false} MatchingSnoc<T>(es: seq<Entry<Value<T>>>, e: Entry<Value<T>>, p: Selector<T>)
    ensures Matching(es + [e], p) == Matching(es, p) + (if p(e.value, e.key) == Yes then [e.value] else [])
  {
    if |es| == 0 {
      assert (es + [e])[1..] == [];
    } else {
      assert (es + [e])[1..] == es[1..] + [e];
      MatchingSnoc(es[1..], e, p);
    }
  }

  /** `filter`: rewinds, walks the collection with `foreach`, adds every element the
      closure strictly accepts to a new writable collection, and rewinds again. */
  function Filter<T>(c: Collection<T>, p: Selector<T>): (r: (Collection<T>, Collection<T>))
    ensures Values(r.1.entities) == Matching(Snapshot(c), p) && Dense(r.1.entities)
    ensures !r.1.readOnly && r.1.iter.None?
    ensures r.0.entities == c.entities && r.0.readOnly == c.readOnly
    ensures !Stale(r.0) && Snapshot(r.0) == Snapshot(c) && Position(r.0) == 0
    ensures Fresh(c) ==> Fresh(r.0) && Values(r.1.entities) == Matching(c.entities.entries, p)
  {
    var c1 := Rewind(c);
    var (c2, visited) := Foreach(c1);
    (Rewind(c2), Create(Matching(visited, p)))
  }

  /** What an update leaves at an entry first seen as `e` and now holding `current`. */
  function Updated<T>(act: Update<T>, e: Entry<Value<T>>, current: Value<T>): Value<T> {
    match act(e.key, e.value)
    case Some(v) => v
    case None => current
  }

  /** The `forAll` loop from position `i` of `orig`, the copy of the entries taken when
      the loop started. */
  function ApplyFrom<T>(c: Collection<T>, orig: seq<Entry<Value<T>>>, i: nat, act: Update<T>): (r: Step<Collection<T>, Ret>)
    requires i <= |orig| == |c.entities.entries|
    requires forall j :: 0 <= j < |orig| ==> c.entities.entries[j].key == orig[j].key
    ensures r.result.Err? <==> c.readOnly && (exists j :: i <= j < |orig| && act(orig[j].key, orig[j].value).Some?)
    ensures r.result.Err? ==> r == Step(c, Err(ReadOnlyViolation))
    ensures r.result.Ok? ==>
              && r.result.value == Self
              && Keys(r.state.entities) == Keys(c.entities)
              && r.state.entities.nextFree == c.entities.nextFree
              && r.state.readOnly == c.readOnly
              && (forall j :: 0 <= j < |orig| ==>
                    r.state.entities.entries[j].value ==
                      if j < i then c.entities.entries[j].value
                      else Updated(act, orig[j], c.entities.entries[j].value))
    ensures Fresh(c) ==> Fresh(r.state)
    decreases |orig| - i
  {
    if i == |orig| then Step(c, Ok(Self))
    else match act(orig[i].key, orig[i].value)
      case None => ApplyFrom(c, orig, i + 1, act)
      case Some(v) =>
        var s := OffsetSet(c, Some(orig[i].key), v);
        if s.result.Err? then s
        else
          assert s.state.entities.entries == c.entities.entries[i := Entry(orig[i].key, v)];
          ApplyFrom(s.state, orig, i + 1, act)
  }

  /** `forAll`: calls the closure once per entry of the array as it stood when the call
      began, in order; the closure's writes go through `offsetSet`, so they are visible
      afterwards and a read-only collection throws at the first write. Returns `$this`. */
  function ForAll<T>(c: Collection<T>, act: Update<T>): (r: Step<Collection<T>, Ret>)
    ensures r.result.Err? <==>
              c.readOnly && exists j :: 0 <= j < |c.entities.entries| && act(c.entities.entries[j].key, c.entities.entries[j].value).Some?
    ensures r.result.Err? ==> r == Step(c, Err(ReadOnlyViolation))
    ensures r.result.Ok? ==>
              && r.result.value == Self
              && Keys(r.state.entities) == Keys(c.entities)
              && r.state.entities.nextFree == c.entities.nextFree
              && r.state.readOnly == c.readOnly
              && (forall j :: 0 <= j < |c.entities.entries| ==>
                    r.state.entities.entries[j].value == Updated(act, c.entities.entries[j], c.entities.entries[j].value))
    ensures Fresh(c) ==> Fresh(r.state)
  {
    ApplyFrom(c, c.entities.entries, 0, act)
  }

  /** `slice`: `array_slice` over enumeration positions, added to a new collection (so
      reindexed 0..m-1) that takes over the source's read-only flag. */
  function Slice<T>(c: Collection<T>, offset: int, length: Option<int>): (r: Collection<T>)
    ensures Values(r.entities) == ArraySlice(c.entities, offset, length)
    ensures Dense(r.entities) && |r.entities.entries| <= |c.entities.entries|
    ensures r.readOnly == c.readOnly && r.iter.None?
  {
    SetReadOnly(Create(ArraySlice(c.entities, offset, length)), c.readOnly)
  }

  /** `sort` as the source writes it: rewinds, then replaces the array with the
      sorter's output, but leaves the cached iterator marked valid, so the next walk
      still sees the pre-sort copy. */
  function SortAsWritten<T>(c: Collection<T>, sorter: Sorter<T>): (r: Collection<T>)
    ensures r.entities == sorter(c.entities) && r.readOnly == c.readOnly
    ensures !Stale(r) && Snapshot(r) == Snapshot(c) && Position(r) == 0
  {
    var c1 := Rewind(c);
    c1.(entities := sorter(c1.entities))
  }

  /** `sort` with the replacement marking the iterator stale, as every other write does:
      the next walk covers the sorted array from its first entry. */
  function Sort<T>(c: Collection<T>, sorter: Sorter<T>): (r: Collection<T>)
    ensures r.entities == sorter(c.entities) && r.readOnly == c.readOnly
    ensures Fresh(r) && Position(r) == 0
    ensures Foreach(r).1 == sorter(c.entities).entries
  {
    var c1 := Rewind(c);
    c1.(entities := sorter(c1.entities), iterValid := false)
  }
}

=== FILE: laws.dfy ===
/** Properties that relate several operations of the collection, the proxy and the
    lazy collection, for all inputs. */
module Laws {
  import opened Outcomes
  import opened PhpArrays
  import C = Collections
  import P = Proxies
  import L = Lazies

  // ---------------------------------------------------------------------------
  // The array-backed collection

  /** The read-only guard: with the flag set, every write throws and changes nothing;
      clearing the flag (which is itself never blocked) makes writes succeed again. */
  lemma ReadOnlyGuard<T>(c: C.Collection<T>, v: C.Value<T>, k: Option<nat>, u: nat)
    ensures var ro := C.SetReadOnly(c, true);
            && C.Add(ro, v) == Step(ro, Err(ReadOnlyViolation))
            && C.OffsetSet(ro, k, v) == Step(ro, Err(ReadOnlyViolation))
            && C.OffsetUnset(ro, u) == Step(ro, Err(ReadOnlyViolation))
    ensures var rw := C.SetReadOnly(C.SetReadOnly(c, true), false);
            && C.Add(rw, v).result == Ok(Self)
            && C.OffsetSet(rw, k, v).result == Ok(Self)
            && C.OffsetUnset(rw, u).result == Ok(Void)
  {
  }

  /** `offsetSet` with no key is `add`: the element lands at the next free key. */
  lemma SetWithoutKeyAppends<T>(c: C.Collection<T>, v: C.Value<T>)
    requires !c.readOnly
    ensures var r := C.OffsetSet(c, None, v);
            && r.result == Ok(Self)
            && Lookup(r.state.entities, c.entities.nextFree) == Some(v)
            && Keys(r.state.entities) == Keys(c.entities) + [c.entities.nextFree]
  {
    var r := C.OffsetSet(c, None, v);
    assert Keys(r.state.entities) == Keys(c.entities) + [c.entities.nextFree];
  }

  /** Unsetting a key that an `offsetSet` just created gives back the same map, except
      that the next free key stays past the removed one. */
  lemma UnsetUndoesSetOfNewKey<T>(c: C.Collection<T>, k: nat, v: C.Value<T>)
    requires !c.readOnly && !HasKey(c.entities, k)
    ensures var s := C.OffsetSet(c, Some(k), v).state;
            var u := C.OffsetUnset(s, k).state;
            && (forall k' :: Lookup(u.entities, k') == Lookup(c.entities, k'))
            && u.entities.entries == c.entities.entries
            && u.entities.nextFree >= c.entities.nextFree
            && u.entities.nextFree > k
  {
    var s := C.OffsetSet(c, Some(k), v).state;
    assert Keys(s.entities) == Keys(c.entities) + [k];
    assert |s.entities.entries| == |c.entities.entries| + 1;
    var n := |c.entities.entries|;
    assert s.entities.entries[n].key == k by {
      assert Keys(s.entities)[n] == k;
    }
    assert s.entities.entries[..n] == c.entities.entries by {
      forall i | 0 <= i < n
        ensures s.entities.entries[i] == c.entities.entries[i]
      {
        assert s.entities.entries[i].key == c.entities.entries[i].key by {
          assert Keys(s.entities)[i] == Keys(c.entities)[i];
        }
        assert Lookup(s.entities, c.entities.entries[i].key) == Lookup(c.entities, c.entities.entries[i].key);
      }
    }
    FindPosition(s.entities, n);
    assert s.entities.entries == c.entities.entries + [s.entities.entries[n]];
    assert s.entities.entries[..n] + s.entities.entries[n + 1..] == c.entities.entries;
  }

  /** `first` and `last` on a collection built by appending are its first and last
      elements, or `OutOfRangeException` when that element is `null`. */
  lemma FirstLastOfDense<T>(c: C.Collection<T>)
    requires Dense(c.entities) && c.entities.entries != []
    ensures var vs := Values(c.entities);
            && C.First(c) == (if vs[0].Val? then Ok(vs[0]) else Err(IndexOutOfRange(0)))
            && C.Last(c) == (if vs[|vs| - 1].Val? then Ok(vs[|vs| - 1]) else Err(IndexOutOfRange(|vs| - 1)))
  {
    var n := |c.entities.entries|;
    assert c.entities.entries[0].key == 0;
    assert c.entities.entries[n - 1].key == n - 1;
    assert Lookup(c.entities, 0) == Some(c.entities.entries[0].value);
    assert Lookup(c.entities, n - 1) == Some(c.entities.entries[n - 1].value);
  }

  /** After `add`, `offsetSet` or `offsetUnset` the next iterator call starts afresh on
      the updated map, at its first entry. */
  lemma WritesRestartIteration<T>(c: C.Collection<T>, v: C.Value<T>, k: Option<nat>, u: nat)
    requires !c.readOnly
    ensures var a := C.Add(c, v).state;
            && C.Foreach(a).1 == a.entities.entries
            && C.Current(a).1 == a.entities.entries[0].value
    ensures var s := C.OffsetSet(c, k, v).state;
            && C.Foreach(s).1 == s.entities.entries
            && C.Current(s).1 == s.entities.entries[0].value
    ensures var d := C.OffsetUnset(c, u).state;
            && C.Foreach(d).1 == d.entities.entries
            && C.Current(d).1 == (if d.entities.entries == [] then C.Null else d.entities.entries[0].value)
  {
    var s := C.OffsetSet(c, k, v).state;
    assert s.entities.entries != [] by {
      if k.Some? {
        assert Lookup(s.entities, k.value).Some?;
      }
    }
  }

  /** Every operation except the as-written `sort` keeps the cached iterator faithful
      to the current entries, so a walk always sees the map as it is. */
  lemma OperationsKeepIterationFresh<T>(c: C.Collection<T>, v: C.Value<T>, k: Option<nat>, u: nat,
                                        sel: C.Selector<T>, act: C.Update<T>, sorter: C.Sorter<T>)
    requires C.Fresh(c)
    ensures C.Fresh(C.Add(c, v).state) && C.Fresh(C.OffsetSet(c, k, v).state) && C.Fresh(C.OffsetUnset(c, u).state)
    ensures C.Fresh(C.Current(c).0) && C.Fresh(C.Key(c).0) && C.Fresh(C.Valid(c).0)
    ensures C.Fresh(C.Next(c)) && C.Fresh(C.Rewind(c)) && C.Fresh(C.Foreach(c).0)
    ensures C.Fresh(C.Filter(c, sel).0) && C.Fresh(C.ForAll(c, act).state)
    ensures C.Fresh(C.Sort(c, sorter))
  {
  }

  // ---------------------------------------------------------------------------
  // The proxy

  /** `getCollection()` returns the collection last handed to the constructor or to
      `setCollection`, and the proxy holds nothing else. */
  lemma ProxyHoldsLastCollection<T>(c: C.Collection<T>, d: C.Collection<T>)
    ensures P.GetCollection(P.New(c)) == c
    ensures P.GetCollection(P.SetCollection(P.New(c), d).0) == d
    ensures P.SetCollection(P.New(c), d).0 == P.New(d)
  {
  }

  /** Errors of the held collection reach the proxy's caller unchanged, and a failed
      write leaves the proxy as it was. */
  lemma ProxyPropagatesReadOnly<T>(c: C.Collection<T>, v: C.Value<T>, k: Option<nat>, u: nat)
    requires c.readOnly
    ensures P.Add(P.New(c), v) == Step(P.New(c), Err(ReadOnlyViolation))
    ensures P.OffsetSet(P.New(c), k, v) == Step(P.New(c), Err(ReadOnlyViolation))
    ensures P.OffsetUnset(P.New(c), u) == Step(P.New(c), Err(ReadOnlyViolation))
  {
  }

  // ---------------------------------------------------------------------------
  // The lazy collection

  /** Once `getCollection()` has been called, calling it again changes nothing and
      succeeds, whether the first call succeeded or threw. */
  lemma GetCollectionSettles<T>(l: L.Lazy<T>)
    ensures var g := L.GetCollection(l);
            L.GetCollection(g.state) == Step(g.state, Ok(L.Inner(g.state)))
  {
  }

  /** First access on a fresh lazy collection runs the initializer exactly once and
      leaves the held collection holding its elements in order, keyed 0..n-1. */
  lemma FirstAccessPopulates<T>(xs: seq<C.Value<T>>)
    ensures var g := L.GetCollection(L.New(Some(L.CollectionOf(xs))));
            && g.result.Ok?
            && L.IsInitialized(g.state) && g.state.runs == 1
            && Values(L.Inner(g.state).entities) == xs
            && Dense(L.Inner(g.state).entities)
  {
    var l := L.New(Some(L.CollectionOf(xs)));
    var g := L.GetCollection(l);
    assert L.Inner(g.state) == C.AddAll(C.Empty(), xs).state;
    assert L.Inner(g.state) == C.Create(xs);
  }

  /** Whatever sequence of inherited operations runs on a lazy collection, the
      initializer has been called at most once. */
  lemma InitializerRunsAtMostOnce<T, R, S>(init: Option<L.Produced<T>>,
                                           op1: P.Proxy<T> -> Step<P.Proxy<T>, R>,
                                           op2: P.Proxy<T> -> Step<P.Proxy<T>, S>)
    ensures var l1 := L.Through(L.New(init), op1).state;
            var l2 := L.Through(l1, op2).state;
            && l2.runs <= 1
            && L.Initialize(l2).state.runs <= 1
            && (init.Some? ==> L.IsInitialized(l1) && l1.runs == 1 && l2.runs == 1)
  {
  }

  /** A result that is not a collection throws on the first access only; afterwards the
      collection counts as initialized and stays empty. */
  lemma FailOnce<T, R>(op: P.Proxy<T> -> Step<P.Proxy<T>, R>)
    ensures var first := L.Through(L.New(Some(L.NotACollection)), op);
            && first.result == Err(UnexpectedType)
            && L.IsInitialized(first.state) && first.state.runs == 1
            && L.Inner(first.state).entities.entries == []
            && L.Count(first.state) == Step(first.state, Ok(0))
  {
  }

  /** Without an initializer, initialization never happens and the collection stays
      empty. */
  lemma NoInitializerStaysEmpty<T, R>(op: P.Proxy<T> -> Step<P.Proxy<T>, R>)
    ensures var l := L.New<T>(None);
            && L.Initialize(l) == Step(l, Ok(Self))
            && L.Count(l) == Step(l, Ok(0))
            && L.IsEmpty(l) == Step(l, Ok(true))
            && !L.IsInitialized(L.Through(l, op).state)
  {
  }

  /** Serializing forces initialization; unserializing gives a lazy collection that,
      once accessed, holds the same elements in the same order, keyed 0..n-1. */
  lemma SerializeRoundTrip<T>(l: L.Lazy<T>)
    requires L.Serialize(l).result.Ok?
    ensures var s := L.Serialize(l);
            var u := L.Unserialize(s.result.value);
            var g := L.GetCollection(u);
            && (l.initializer.Some? ==> L.IsInitialized(s.state))
            && g.result.Ok? && L.IsInitialized(g.state)
            && Values(L.Inner(g.state).entities) == Values(L.Inner(s.state).entities)
            && Dense(L.Inner(g.state).entities)
            && L.Count(u).result == Ok(|L.Inner(s.state).entities.entries|)
  {
    var s := L.Serialize(l);
    FirstAccessPopulates(s.result.value.elements);
  }
}

=== FILE: lazy.dfy ===
/** `LazyCollection`: a proxy whose held collection starts empty and is filled, on the
    first request for it, from what a deferred initializer produces. The flag that
    records initialization is set before the initializer runs, so a bad result throws
    once and is never retried. */
module Lazies {
  import opened Outcomes
  import opened PhpArrays
  import C = Collections
  import P = Proxies

  /** What the initializer closure returns, as the unknown-value adapter classifies
      it: a collection (exposing its elements in iteration order) or anything else. */
  datatype Produced<T> = CollectionOf(elements: seq<C.Value<T>>) | NotACollection

  /** The lazy collection. The initializer closure is deterministic and has no other
      effect, so it is represented by what it returns. `runs` counts how many times the
      initializer has been called; it is bookkeeping of this model, not a PHP field. */
  datatype Lazy<T> = Lazy(
    initializer: Option<Produced<T>>,
    initialized: bool,
    runs: nat,
    proxy: P.Proxy<T>)

  /** `serialize()`'s output: the materialized elements in iteration order. */
  datatype Blob<T> = Blob(elements: seq<C.Value<T>>)

  /** The initializer has run exactly as many times as the flag says, i.e. at most once. */
  ghost predicate Accounted<T>(l: Lazy<T>) {
    && l.runs == (if l.initialized then 1 else 0)
    && (l.initialized ==> l.initializer.Some?)
  }

  function Inner<T>(l: Lazy<T>): C.Collection<T> {
    P.GetCollection(l.proxy)
  }

  /** `new LazyCollection($initializer)`: an empty, writable held collection, and not
      initialized. */
  function New<T>(init: Option<Produced<T>>): (l: Lazy<T>)
    ensures !l.initialized && l.initializer == init && Accounted(l)
    ensures Inner(l).entities.entries == [] && !Inner(l).readOnly && C.Fresh(Inner(l))
    ensures P.Count(l.proxy) == 0 && P.IsEmpty(l.proxy)
  {
    Lazy(init, false, 0, P.New(C.Empty()))
  }

  /** `isInitialized`: once set, `getCollection()` runs nothing and changes nothing;
      while clear, the next `getCollection()` runs a present initializer. */
  function IsInitialized<T>(l: Lazy<T>): (r: bool)
    ensures r ==> GetCollection(l) == Step(l, Ok(Inner(l)))
    ensures !r && l.initializer.Some? ==>
              GetCollection(l).state.initialized && GetCollection(l).state.runs == l.runs + 1
  {
    l.initialized
  }

  /** `initialize`: with an initializer and not yet initialized, sets the flag, runs
      the initializer once and appends its elements to the held collection, throwing
      if the result is not a collection; otherwise does nothing. Returns `$this`. */
  function Initialize<T>(l: Lazy<T>): (r: Step<Lazy<T>, Ret>)
    ensures l.initializer.None? || l.initialized ==> r == Step(l, Ok(Self))
    ensures l.initializer.Some? && !l.initialized ==>
              && r.state.initialized && r.state.runs == l.runs + 1
              && r.state.initializer == l.initializer
    ensures l.initializer == Some(NotACollection) && !l.initialized ==>
              r.result == Err(UnexpectedType) && Inner(r.state) == Inner(l)
    ensures l.initializer.Some? && l.initializer.value.CollectionOf? && !l.initialized && !Inner(l).readOnly ==>
              && r.result == Ok(Self)
              && Values(Inner(r.state).entities) == Values(Inner(l).entities) + l.initializer.value.elements
              && Inner(r.state).entities.entries ==
                   Inner(l).entities.entries + C.Appended(Inner(l).entities.nextFree, l.initializer.value.elements)
              && Inner(r.state).readOnly == Inner(l).readOnly
    ensures l.initializer.Some? && l.initializer.value.CollectionOf? && l.initializer.value.elements != []
            && !l.initialized && Inner(l).readOnly ==>
              r.result == Err(ReadOnlyViolation) && Inner(r.state) == Inner(l)
    ensures Accounted(l) ==> Accounted(r.state)
  {
    if l.initializer.Some? && !l.initialized then
      var l1 := l.(initialized := true, runs := l.runs + 1);
      match l.initializer.value
      case NotACollection => Step(l1, Err(UnexpectedType))
      case CollectionOf(xs) =>
        var s := C.AddAll(Inner(l1), xs);
        var l2 := l1.(proxy := P.SetCollection(l1.proxy, s.state).0);
        Step(l2, if s.result.Err? then Err(s.result.error) else Ok(Self))
    else Step(l, Ok(Self))
  }

  /** `getCollection`, as overridden: initializes first if not yet initialized, then
      returns the held collection. An exception from the initializer propagates. */
  function GetCollection<T>(l: Lazy<T>): (r: Step<Lazy<T>, C.Collection<T>>)
    ensures l.initialized ==> r == Step(l, Ok(Inner(l)))
    ensures l.initializer.None? ==> r == Step(l, Ok(Inner(l)))
    ensures r.result.Ok? ==> r.result.value == Inner(r.state)
    ensures r.state.initialized <==> l.initialized || l.initializer.Some?
    ensures r.state.runs == if l.initializer.Some? && !l.initialized then l.runs + 1 else l.runs
    ensures r.state.initializer == l.initializer
    ensures r.result.Err? ==> l.initializer.Some? && !l.initialized
    ensures Accounted(l) ==> Accounted(r.state)
  {
    var i := if !l.initialized then Initialize(l) else Step(l, Ok(Self));
    if i.result.Err? then Step(i.state, Err(i.result.error))
    else Step(i.state, Ok(Inner(i.state)))
  }

  /** Every operation the lazy collection inherits from the proxy: the proxy method
      calls `getCollection()`, which is the lazy override, and then works on the held
      collection. */
  function Through<T, R>(l: Lazy<T>, op: P.Proxy<T> -> Step<P.Proxy<T>, R>): (r: Step<Lazy<T>, R>)
    ensures var g := GetCollection(l);
            && (g.result.Err? ==> r == Step(g.state, Err(g.result.error)))
            && (g.result.Ok? ==> r == Step(g.state.(proxy := op(g.state.proxy).state), op(g.state.proxy).result))
    ensures r.state.initialized == GetCollection(l).state.initialized
    ensures r.state.runs == GetCollection(l).state.runs
    ensures r.state.initializer == l.initializer
    ensures Accounted(l) ==> Accounted(r.state)
  {
    var g := GetCollection(l);
    if g.result.Err? then Step(g.state, Err(g.result.error))
    else
      var s := op(g.state.proxy);
      Step(g.state.(proxy := s.state), s.result)
  }

  /** `setCollection`, inherited: replaces the held collection without initializing. */
  function SetCollection<T>(l: Lazy<T>, c: C.Collection<T>): (r: Lazy<T>)
    ensures Inner(r) == c
    ensures r.initialized == l.initialized && r.runs == l.runs && r.initializer == l.initializer
  {
    l.(proxy := P.SetCollection(l.proxy, c).0)
  }

  // ---------------------------------------------------------------------------
  // Inherited operations, each through the initializing `getCollection`

  function Count<T>(l: Lazy<T>): (r: Step<Lazy<T>, nat>)
    ensures r.result.Ok? ==> r.result.value == |Inner(r.state).entities.entries|
    ensures r.result.Err? <==> GetCollection(l).result.Err?
    ensures r.state == GetCollection(l).state
    ensures var g := GetCollection(l);
            g.result.Err? ==> r == Step(g.state, Err(g.result.error))
  {
    Through(l, (p: P.Proxy<T>) => Step(p, Ok(P.Count(p))))
  }

  function IsEmpty<T>(l: Lazy<T>): (r: Step<Lazy<T>, bool>)
    ensures r.result.Ok? ==> (r.result.value <==> Inner(r.state).entities.entries == [])
    ensures r.result.Err? <==> GetCollection(l).result.Err?
    ensures r.state == GetCollection(l).state
    ensures var g := GetCollection(l);
            g.result.Err? ==> r == Step(g.state, Err(g.result.error))
  {
    Through(l, (p: P.Proxy<T>) => Step(p, Ok(P.IsEmpty(p))))
  }

  function OffsetExists<T>(l: Lazy<T>, k: nat): (r: Step<Lazy<T>, bool>)
    ensures r.result.Ok? ==> r.result.value == C.OffsetExists(Inner(r.state), k)
    ensures r.result.Err? <==> GetCollection(l).result.Err?
    ensures r.state == GetCollection(l).state
    ensures var g := GetCollection(l);
            g.result.Err? ==> r == Step(g.state, Err(g.result.error))
  {
    Through(l, (p: P.Proxy<T>) => Step(p, Ok(P.OffsetExists(p, k))))
  }

  function OffsetGet<T>(l: Lazy<T>, k: nat): (r: Step<Lazy<T>, C.Value<T>>)
    ensures GetCollection(l).result.Ok? ==> r.result == C.OffsetGet(Inner(r.state), k)
    ensures GetCollection(l).result.Err? ==> r.result == Err(GetCollection(l).result.error)
    ensures r.state == GetCollection(l).state
  {
    Through(l, (p: P.Proxy<T>) => Step(p, P.OffsetGet(p, k)))
  }

  function First<T>(l: Lazy<T>): (r: Step<Lazy<T>, C.Value<T>>)
    ensures GetCollection(l).result.Ok? ==> r.result == C.First(Inner(r.state))
    ensures GetCollection(l).result.Ok? && Inner(r.state).entities.entries != [] ==>
              (r.result.Ok? <==> C.OffsetExists(Inner(r.state), 0))
    ensures r.state == GetCollection(l).state
    ensures var g := GetCollection(l);
            g.result.Err? ==> r == Step(g.state, Err(g.result.error))
  {
    Through(l, (p: P.Proxy<T>) => Step(p, P.First(p)))
  }

  function Last<T>(l: Lazy<T>): (r: Step<Lazy<T>, C.Value<T>>)
    ensures GetCollection(l).result.Ok? ==> r.result == C.Last(Inner(r.state))
    ensures GetCollection(l).result.Ok? && Inner(r.state).entities.entries != [] ==>
              (r.result.Ok? <==> C.OffsetExists(Inner(r.state), |Inner(r.state).entities.entries| - 1))
    ensures r.state == GetCollection(l).state
    ensures var g := GetCollection(l);
            g.result.Err? ==> r == Step(g.state, Err(g.result.error))
  {
    Through(l, (p: P.Proxy<T>) => Step(p, P.Last(p)))
  }

  function Add<T>(l: Lazy<T>, v: C.Value<T>): (r: Step<Lazy<T>, Ret>)
    ensures var g := GetCollection(l);
            && (g.result.Err? ==> r == Step(g.state, Err(g.result.error)))
            && (g.result.Ok? && Inner(g.state).readOnly ==> r == Step(g.state, Err(ReadOnlyViolation)))
            && (g.result.Ok? && !Inner(g.state).readOnly ==>
                  r.result == Ok(Void) && Values(Inner(r.state).entities) == Values(Inner(g.state).entities) + [v])
  {
    Through(l, (p: P.Proxy<T>) => P.Add(p, v))
  }

  function OffsetSet<T>(l: Lazy<T>, k: Option<nat>, v: C.Value<T>): (r: Step<Lazy<T>, Ret>)
    ensures var g := GetCollection(l);
            && (g.result.Err? ==> r == Step(g.state, Err(g.result.error)))
            && (g.result.Ok? && Inner(g.state).readOnly ==> r == Step(g.state, Err(ReadOnlyViolation)))
            && (g.result.Ok? && !Inner(g.state).readOnly ==> r.result == Ok(Void))
            && (g.result.Ok? && !Inner(g.state).readOnly && k.None? ==>
                  && Values(Inner(r.state).entities) == Values(Inner(g.state).entities) + [v]
                  && Lookup(Inner(r.state).entities, Inner(g.state).entities.nextFree) == Some(v))
            && (g.result.Ok? && !Inner(g.state).readOnly && k.Some? ==>
                  && Lookup(Inner(r.state).entities, k.value) == Some(v)
                  && (forall k' :: k' != k.value ==> Lookup(Inner(r.state).entities, k') == Lookup(Inner(g.state).entities, k')))
  {
    Through(l, (p: P.Proxy<T>) => P.OffsetSet(p, k, v))
  }

  function OffsetUnset<T>(l: Lazy<T>, k: nat): (r: Step<Lazy<T>, Ret>)
    ensures var g := GetCollection(l);
            && (g.result.Err? ==> r == Step(g.state, Err(g.result.error)))
            && (g.result.Ok? && Inner(g.state).readOnly ==> r == Step(g.state, Err(ReadOnlyViolation)))
    ensures var g := GetCollection(l);
            g.result.Ok? && !Inner(g.state).readOnly ==>
              && r.result == Ok(Void) && !C.OffsetExists(Inner(r.state), k)
              && (forall k' :: k' != k ==> Lookup(Inner(r.state).entities, k') == Lookup(Inner(g.state).entities, k'))
  {
    Through(l, (p: P.Proxy<T>) => P.OffsetUnset(p, k))
  }

  function ForAll<T>(l: Lazy<T>, act: C.Update<T>): (r: Step<Lazy<T>, Ret>)
    ensures var g := GetCollection(l);
            && (g.result.Err? ==> r == Step(g.state, Err(g.result.error)))
            && (g.result.Ok? ==> r.state.proxy == P.ForAll(g.state.proxy, act).state)
            && (g.result.Ok? && !Inner(g.state).readOnly ==>
                  && r.result == Ok(Self)
                  && Keys(Inner(r.state).entities) == Keys(Inner(g.state).entities)
                  && forall j :: 0 <= j < |Inner(g.state).entities.entries| ==>
                       Inner(r.state).entities.entries[j].value ==
                         C.Updated(act, Inner(g.state).entities.entries[j], Inner(g.state).entities.entries[j].value))
  {
    Through(l, (p: P.Proxy<T>) => P.ForAll(p, act))
  }

  function Filter<T>(l: Lazy<T>, sel: C.Selector<T>): (r: Step<Lazy<T>, C.Collection<T>>)
    ensures var g := GetCollection(l);
            && (g.result.Err? ==> r == Step(g.state, Err(g.result.error)))
            && (g.result.Ok? ==>
                  && r.result.Ok? && Dense(r.result.value.entities)
                  && Values(r.result.value.entities) == C.Matching(C.Snapshot(Inner(g.state)), sel))
            && (g.result.Ok? && C.Fresh(Inner(g.state)) ==>
                  r.result.Ok? && Values(r.result.value.entities) == C.Matching(Inner(g.state).entities.entries, sel))
  {
    Through(l, (p: P.Proxy<T>) => var f := P.Filter(p, sel); Step(f.0, Ok(f.1)))
  }

  function Slice<T>(l: Lazy<T>, offset: int, length: Option<int>): (r: Step<Lazy<T>, C.Collection<T>>)
    ensures var g := GetCollection(l);
            && (g.result.Err? ==> r == Step(g.state, Err(g.result.error)))
            && (g.result.Ok? ==>
                  && r.state == g.state && r.result.Ok?
                  && Values(r.result.value.entities) == ArraySlice(Inner(g.state).entities, offset, length)
                  && Dense(r.result.value.entities)
                  && r.result.value.readOnly == Inner(g.state).readOnly
                  && r.result.value.iter.None?)
  {
    Through(l, (p: P.Proxy<T>) => Step(p, Ok(P.Slice(p, offset, length))))
  }

  /** `sort` through the proxy, so with the collection `sort` as it is written: the
      held iterator is rewound but keeps its snapshot of the unsorted entries. */
  function Sort<T>(l: Lazy<T>, sorter: C.Sorter<T>): (r: Step<Lazy<T>, Ret>)
    ensures var g := GetCollection(l);
            g.result.Ok? ==> r.result == Ok(Self) && Inner(r.state).entities == sorter(Inner(g.state).entities)
    ensures var g := GetCollection(l);
            g.result.Ok? ==>
              && !C.Stale(Inner(r.state)) && C.Position(Inner(r.state)) == 0
              && C.Snapshot(Inner(r.state)) == C.Snapshot(Inner(g.state))
    ensures var g := GetCollection(l);
            g.result.Err? ==> r == Step(g.state, Err(g.result.error))
  {
    Through(l, (p: P.Proxy<T>) => var s := P.Sort(p, sorter); Step(s.0, Ok(s.1)))
  }

  /** `sort` through the proxy with the corrected collection `sort`: the next walk
      covers the sorted entries. */
  function SortIntended<T>(l: Lazy<T>, sorter: C.Sorter<T>): (r: Step<Lazy<T>, Ret>)
    ensures var g := GetCollection(l);
            g.result.Ok? ==>
              && r.result == Ok(Self) && Inner(r.state).entities == sorter(Inner(g.state).entities)
              && C.Fresh(Inner(r.state))
              && C.Foreach(Inner(r.state)).1 == sorter(Inner(g.state).entities).entries
    ensures var g := GetCollection(l);
            g.result.Err? ==> r == Step(g.state, Err(g.result.error))
  {
    var g := GetCollection(l);
    if g.result.Err? then Step(g.state, Err(g.result.error))
    else
      var s := P.SortIntended(g.state.proxy, sorter);
      Step(g.state.(proxy := s.0), Ok(s.1))
  }

  /** The iterator protocol, each call through `getCollection()`. */
  function Current<T>(l: Lazy<T>): (r: Step<Lazy<T>, C.Value<T>>)
    ensures GetCollection(l).result.Ok? ==> r.result == Ok(C.Current(Inner(GetCollection(l).state)).1)
    ensures var c := Inner(GetCollection(l).state);
            GetCollection(l).result.Ok? && C.Position(c) >= |C.Snapshot(c)| ==> r.result == Ok(C.Null)
    ensures var g := GetCollection(l);
            g.result.Err? ==> r == Step(g.state, Err(g.result.error))
  {
    Through(l, (p: P.Proxy<T>) => var q := P.Current(p); Step(q.0, Ok(q.1)))
  }

  function Key<T>(l: Lazy<T>): (r: Step<Lazy<T>, Option<nat>>)
    ensures GetCollection(l).result.Ok? ==> r.result == Ok(C.Key(Inner(GetCollection(l).state)).1)
    ensures var c := Inner(GetCollection(l).state);
            GetCollection(l).result.Ok? && C.Position(c) < |C.Snapshot(c)| ==>
              r.result == Ok(Some(C.Snapshot(c)[C.Position(c)].key))
    ensures var g := GetCollection(l);
            g.result.Err? ==> r == Step(g.state, Err(g.result.error))
  {
    Through(l, (p: P.Proxy<T>) => var q := P.Key(p); Step(q.0, Ok(q.1)))
  }

  function Valid<T>(l: Lazy<T>): (r: Step<Lazy<T>, bool>)
    ensures GetCollection(l).result.Ok? ==> r.result == Ok(C.Valid(Inner(GetCollection(l).state)).1)
    ensures var c := Inner(GetCollection(l).state);
            GetCollection(l).result.Ok? ==> (r.result == Ok(true) <==> C.Position(c) < |C.Snapshot(c)|)
    ensures var g := GetCollection(l);
            g.result.Err? ==> r == Step(g.state, Err(g.result.error))
  {
    Through(l, (p: P.Proxy<T>) => var q := P.Valid(p); Step(q.0, Ok(q.1)))
  }

  function Next<T>(l: Lazy<T>): (r: Step<Lazy<T>, Ret>)
    ensures GetCollection(l).result.Ok? ==> r.result == Ok(Void) && Inner(r.state) == C.Next(Inner(GetCollection(l).state))
    ensures var c := Inner(GetCollection(l).state);
            GetCollection(l).result.Ok? && C.Position(c) < |C.Snapshot(c)| ==> C.Position(Inner(r.state)) == C.Position(c) + 1
    ensures var g := GetCollection(l);
            g.result.Err? ==> r == Step(g.state, Err(g.result.error))
  {
    Through(l, (p: P.Proxy<T>) => Step(P.Next(p), Ok(Void)))
  }

  function Rewind<T>(l: Lazy<T>): (r: Step<Lazy<T>, Ret>)
    ensures GetCollection(l).result.Ok? ==> r.result == Ok(Void) && Inner(r.state) == C.Rewind(Inner(GetCollection(l).state))
    ensures GetCollection(l).result.Ok? ==> C.Position(Inner(r.state)) == 0
    ensures var g := GetCollection(l);
            g.result.Err? ==> r == Step(g.state, Err(g.result.error))
  {
    Through(l, (p: P.Proxy<T>) => Step(P.Rewind(p), Ok(Void)))
  }

  /** PHP `foreach` over the lazy collection: the collection is an `\Iterator`, so the
      loop drives `rewind`, `valid`, `current`, `key` and `next`, which the proxy
      forwards, each via `getCollection()`. Only the first of those can initialize; the
      rest find the collection settled (see `GetCollectionSettles`). */
  function Foreach<T>(l: Lazy<T>): (r: Step<Lazy<T>, seq<Entry<C.Value<T>>>>)
    ensures var g := GetCollection(l);
            && (g.result.Err? ==> r == Step(g.state, Err(g.result.error)))
            && (g.result.Ok? ==> r.result == Ok(C.Snapshot(Inner(g.state))))
            && (g.result.Ok? && C.Fresh(Inner(g.state)) ==> r.result == Ok(Inner(g.state).entities.entries))
  {
    Through(l, (p: P.Proxy<T>) => var w := P.Foreach(p); Step(w.0, Ok(w.1)))
  }

  // ---------------------------------------------------------------------------
  // Serialization

  /** `serialize`: forces initialization, then stores the held collection's elements. */
  function Serialize<T>(l: Lazy<T>): (r: Step<Lazy<T>, Blob<T>>)
    ensures r.state == GetCollection(l).state
    ensures r.result.Err? <==> GetCollection(l).result.Err?
    ensures r.result.Ok? ==> r.result.value.elements == Values(Inner(r.state).entities)
    ensures l.initializer.Some? ==> r.state.initialized
  {
    var g := GetCollection(l);
    if g.result.Err? then Step(g.state, Err(g.result.error))
    else Step(g.state, Ok(Blob(Values(g.result.value.entities))))
  }

  /** `unserialize`: re-runs the constructor with an initializer that returns the
      stored collection, so the result is a fresh, uninitialized lazy collection. */
  function Unserialize<T>(b: Blob<T>): (l: Lazy<T>)
    ensures !l.initialized && l.initializer == Some(CollectionOf(b.elements)) && Accounted(l)
    ensures Inner(l).entities.entries == [] && !Inner(l).readOnly
  {
    New(Some(CollectionOf(b.elements)))
  }
}

=== FILE: outcomes.dfy ===
/** Optional values, the exceptions the collection core throws, and the shape of a
    state transition that may throw. */
module Outcomes {

  datatype Option<+T> = None | Some(value: T)

  /** The exceptions raised by the collection core. */
  datatype Error =
    | ReadOnlyViolation          // RuntimeException "Collection is read only"
    | IndexOutOfRange(offset: nat) // OutOfRangeException "Index out of range"
    | UnexpectedType             // RuntimeException from a lazy initializer's bad result

  datatype Result<+R> = Ok(value: R) | Err(error: Error)

  /** A PHP object is mutated in place, so an operation yields the object's new state
      whether it returned normally or threw; `result` is what it returned or threw. */
  datatype Step<+S, +R> = Step(state: S, result: Result<R>)

  /** The return value of a method that returns no collection: `$this`, or nothing. */
  datatype Ret = Self | Void
}

=== FILE: php_array.dfy ===
/** The PHP array as the collection uses it: an insertion-ordered map from
    non-negative integer keys to values, plus the counter that `$a[] = v` writes at. */
module PhpArrays {
  import opened Outcomes

  datatype Entry<V> = Entry(key: nat, value: V)

  datatype RawArray<V> = RawArray(entries: seq<Entry<V>>, nextFree: nat)

  /** Keys are unique and all lie below the next free key. */
  predicate WellFormed<V>(a: RawArray<V>) {
    && (forall i, j :: 0 <= i < j < |a.entries| ==> a.entries[i].key != a.entries[j].key)
    && (forall i :: 0 <= i < |a.entries| ==> a.entries[i].key < a.nextFree)
  }

  type PhpArray<V> = a: RawArray<V> | WellFormed(a) witness RawArray([], 0)

  /** `array()`. */
  function EmptyArray<V>(): (a: PhpArray<V>)
    ensures |a.entries| == 0 && a.nextFree == 0
  {
    RawArray([], 0)
  }

  /** The enumeration position of key `k`, if `k` is present. */
  function Find<V>(es: seq<Entry<V>>, k: nat): (r: Option<nat>)
    ensures r.Some? ==> r.value < |es| && es[r.value].key == k
    ensures r.None? <==> forall i :: 0 <= i < |es| ==> es[i].key != k
  {
    if |es| == 0 then None
    else if es[0].key == k then Some(0)
    else match Find(es[1..], k)
      case None => None
      case Some(j) => Some(j + 1)
  }

  /** With unique keys, the position of a present key is the only one holding it. */
  lemma FindPosition<V>(a: PhpArray<V>, i: nat)
    requires i < |a.entries|
    ensures Find(a.entries, a.entries[i].key) == Some(i)
  {
  }

  /** The set of keys in use. */
  function KeySet<V>(es: seq<Entry<V>>): set<nat> {
    set i | 0 <= i < |es| :: es[i].key
  }

  /** Distinct keys: an array has exactly as many keys as entries. */
  lemma {:induction false} KeySetSize<V>(es: seq<Entry<V>>)
    requires forall i, j :: 0 <= i < j < |es| ==> es[i].key != es[j].key
    ensures |KeySet(es)| == |es|
  {
    if es != [] {
      var n := |es| - 1;
      KeySetSize(es[..n]);
      assert KeySet(es) == KeySet(es[..n]) + {es[n].key} by {
        forall k | k in KeySet(es) ensures k in KeySet(es[..n]) + {es[n].key} {
          var i :| 0 <= i < |es| && es[i].key == k;
          if i < n { assert es[..n][i].key == k; }
        }
      }
      assert es[n].key !in KeySet(es[..n]);
    }
  }

  predicate HasKey<V>(a: PhpArray<V>, k: nat) {
    Find(a.entries, k).Some?
  }

  /** `$a[$k]` as an optional lookup (`None` when the key is absent). */
  function Lookup<V>(a: PhpArray<V>, k: nat): (r: Option<V>)
    ensures r.Some? <==> exists i :: 0 <= i < |a.entries| && a.entries[i].key == k
    ensures forall i :: 0 <= i < |a.entries| && a.entries[i].key == k ==> r == Some(a.entries[i].value)
  {
    match Find(a.entries, k)
    case None => None
    case Some(i) => FindPosition(a, i); Some(a.entries[i].value)
  }

  function Keys<V>(a: PhpArray<V>): (ks: seq<nat>)
    ensures |ks| == |a.entries|
    ensures forall i :: 0 <= i < |ks| ==> ks[i] == a.entries[i].key
  {
    seq(|a.entries|, i requires 0 <= i < |a.entries| => a.entries[i].key)
  }

  function Values<V>(a: PhpArray<V>): (vs: seq<V>)
    ensures |vs| == |a.entries|
    ensures forall i :: 0 <= i < |vs| ==> vs[i] == a.entries[i].value
  {
    seq(|a.entries|, i requires 0 <= i < |a.entries| => a.entries[i].value)
  }

  /** Keys are exactly the positions 0..n-1, and the next free key is n: the shape of
      an array built only by appending. */
  predicate Dense<V>(a: PhpArray<V>) {
    && a.nextFree == |a.entries|
    && forall i :: 0 <= i < |a.entries| ==> a.entries[i].key == i
  }

  /** `$a[] = $v`: writes at the next free key, which no entry holds. */
  function Push<V>(a: PhpArray<V>, v: V): (r: PhpArray<V>)
    ensures !HasKey(a, a.nextFree)
    ensures r.entries == a.entries + [Entry(a.nextFree, v)]
    ensures r.nextFree == a.nextFree + 1
  {
    RawArray(a.entries + [Entry(a.nextFree, v)], a.nextFree + 1)
  }

  /** `$a[$k] = $v`: overwrites in place when `k` is present, otherwise appends `k` at the
      end of the enumeration order and moves the next free key past `k`. */
  function Put<V>(a: PhpArray<V>, k: nat, v: V): (r: PhpArray<V>)
    ensures Lookup(r, k) == Some(v)
    ensures forall k' :: k' != k ==> Lookup(r, k') == Lookup(a, k')
    ensures HasKey(a, k) ==> Keys(r) == Keys(a) && r.nextFree == a.nextFree
    ensures forall j :: 0 <= j < |a.entries| && a.entries[j].key == k ==> r.entries == a.entries[j := Entry(k, v)]
    ensures !HasKey(a, k) ==> Keys(r) == Keys(a) + [k]
    ensures !HasKey(a, k) ==> r.nextFree == if k < a.nextFree then a.nextFree else k + 1
  {
    match Find(a.entries, k)
    case Some(i) =>
      var r := RawArray(a.entries[i := Entry(k, v)], a.nextFree);
      assert Keys(r) == Keys(a);
      r
    case None =>
      var r: PhpArray<V> := RawArray(a.entries + [Entry(k, v)], if k < a.nextFree then a.nextFree else k + 1);
      assert Keys(r) == Keys(a) + [k];
      assert r.entries[|a.entries|] == Entry(k, v);
      AppendKeepsOthers(a, k, r);
      r
  }

  /** `unset($a[$k])`: removes the entry for `k` if there is one; the next free key
      never goes back. */
  function Remove<V>(a: PhpArray<V>, k: nat): (r: PhpArray<V>)
    ensures Lookup(r, k) == None
    ensures forall k' :: k' != k ==> Lookup(r, k') == Lookup(a, k')
    ensures r.nextFree == a.nextFree
    ensures HasKey(a, k) ==> |r.entries| + 1 == |a.entries|
    ensures !HasKey(a, k) ==> r == a
    ensures forall j :: 0 <= j < |a.entries| && a.entries[j].key == k ==>
              r.entries == a.entries[..j] + a.entries[j + 1..]
  {
    match Find(a.entries, k)
    case None => a
    case Some(i) =>
      var es := a.entries[..i] + a.entries[i + 1..];
      assert forall j :: 0 <= j < |es| ==> es[j] == a.entries[if j < i then j else j + 1];
      var r: PhpArray<V> := RawArray(es, a.nextFree);
      RemoveKeepsOthers(a, i, r);
      r
  }

  lemma AppendKeepsOthers<V>(a: PhpArray<V>, k: nat, r: PhpArray<V>)
    requires |r.entries| == |a.entries| + 1 && r.entries[..|a.entries|] == a.entries
    requires r.entries[|a.entries|].key == k
    ensures forall k' :: k' != k ==> Lookup(r, k') == Lookup(a, k')
  {
    forall k' | k' != k
      ensures Lookup(r, k') == Lookup(a, k')
    {
      match Find(r.entries, k')
      case None =>
      case Some(j) =>
        assert j < |a.entries| && r.entries[j] == a.entries[j];
    }
  }

  lemma RemoveKeepsOthers<V>(a: PhpArray<V>, i: nat, r: PhpArray<V>)
    requires i < |a.entries|
    requires r.entries == a.entries[..i] + a.entries[i + 1..]
    ensures forall k' :: k' != a.entries[i].key ==> Lookup(r, k') == Lookup(a, k')
  {
    forall k' | k' != a.entries[i].key
      ensures Lookup(r, k') == Lookup(a, k')
    {
      match Find(a.entries, k')
      case None =>
        if Find(r.entries, k').Some? {
          var j := Find(r.entries, k').value;
          assert r.entries[j] == a.entries[if j < i then j else j + 1];
        }
      case Some(j) =>
        assert j != i;
        var j' := if j < i then j else j - 1;
        assert r.entries[j'] == a.entries[j];
    }
  }

  /** The window `array_slice($a, $offset, $length)` takes, as `(start, count)` over
      enumeration positions, computed as PHP's implementation does: an offset past the
      end gives nothing, a negative offset counts from the end and is clamped at 0, a
      negative length stops that many entries before the end, a missing length means
      "through the end". */
  function SliceWindow(n: nat, offset: int, length: Option<int>): (w: (nat, nat))
    ensures w.0 + w.1 <= n
  {
    var len := if length.None? then n else length.value;
    if offset > n then (0, 0)
    else
      var start: nat := if offset >= 0 then offset else if n + offset < 0 then 0 else n + offset;
      var count := if len < 0 then n - start + len
                   else if start + len > n then n - start
                   else len;
      if count <= 0 then (0, 0) else (start, count)
  }

  /** The values of `array_slice($a, $offset, $length)`; the result is reindexed from 0,
      so its values in order are all that a caller sees. */
  function ArraySlice<V>(a: PhpArray<V>, offset: int, length: Option<int>): (r: seq<V>)
    ensures offset > |a.entries| ==> r == []
    ensures offset <= |a.entries| ==>
              var n := |a.entries|;
              var start := if offset >= 0 then offset else if n + offset < 0 then 0 else n + offset;
              match length
              case None => r == Values(a)[start..]
              case Some(l) =>
                if l >= 0 then r == Values(a)[start..if start + l <= n then start + l else n]
                else r == if start <= n + l then Values(a)[start..n + l] else []
  {
    var w := SliceWindow(|a.entries|, offset, length);
    Values(a)[w.0..w.0 + w.1]
  }
}

=== FILE: proxy.dfy ===
/** `CollectionProxy`: holds one collection and forwards every operation to it. The
    proxy has no state besides the collection it holds; its only own decisions are
    what a few forwarded methods return. */
module Proxies {
  import opened Outcomes
  import opened PhpArrays
  import C = Collections

  datatype Proxy<T> = Proxy(collection: C.Collection<T>)

  /** An inner result with any returned value replaced by nothing; exceptions pass
      through unchanged. */
  function Discard<R>(r: Result<R>): (d: Result<Ret>)
    ensures r.Err? ==> d == Err(r.error)
    ensures r.Ok? ==> d == Ok(Void)
  {
    match r
    case Err(e) => Err(e)
    case Ok(_) => Ok(Void)
  }

  /** `new CollectionProxy($c)`: the constructor goes through `setCollection`. */
  function New<T>(c: C.Collection<T>): (p: Proxy<T>)
    ensures GetCollection(p) == c
  {
    SetCollection(Proxy(c), c).0
  }

  /** `setCollection`: replaces the held collection and returns the proxy. */
  function SetCollection<T>(p: Proxy<T>, c: C.Collection<T>): (r: (Proxy<T>, Ret))
    ensures GetCollection(r.0) == c && r.1 == Self
  {
    (Proxy(c), Self)
  }

  function GetCollection<T>(p: Proxy<T>): C.Collection<T> {
    p.collection
  }

  // ---------------------------------------------------------------------------
  // Queries: the inner collection's answer, unchanged

  function Count<T>(p: Proxy<T>): (r: nat)
    ensures r == C.Count(GetCollection(p)) && r == |GetCollection(p).entities.entries|
  {
    C.Count(GetCollection(p))
  }

  function IsEmpty<T>(p: Proxy<T>): (r: bool)
    ensures r == C.IsEmpty(GetCollection(p)) && (r <==> Count(p) == 0)
  {
    C.IsEmpty(GetCollection(p))
  }

  function OffsetExists<T>(p: Proxy<T>, k: nat): (r: bool)
    ensures r == C.OffsetExists(GetCollection(p), k)
    ensures r <==> Lookup(GetCollection(p).entities, k).Some? && Lookup(GetCollection(p).entities, k).value.Val?
  {
    C.OffsetExists(GetCollection(p), k)
  }

  function OffsetGet<T>(p: Proxy<T>, k: nat): (r: Result<C.Value<T>>)
    ensures r == C.OffsetGet(GetCollection(p), k)
    ensures r.Err? <==> !OffsetExists(p, k)
  {
    C.OffsetGet(GetCollection(p), k)
  }

  function First<T>(p: Proxy<T>): (r: Result<C.Value<T>>)
    ensures r == C.First(GetCollection(p))
    ensures Count(p) == 0 ==> r == Ok(C.Null)
    ensures Count(p) > 0 ==> (r.Ok? <==> OffsetExists(p, 0)) && (r.Ok? ==> r == OffsetGet(p, 0))
  {
    C.First(GetCollection(p))
  }

  function Last<T>(p: Proxy<T>): (r: Result<C.Value<T>>)
    ensures r == C.Last(GetCollection(p))
    ensures Count(p) == 0 ==> r == Ok(C.Null)
    ensures Count(p) > 0 ==> (r.Ok? <==> OffsetExists(p, Count(p) - 1)) && (r.Ok? ==> r == OffsetGet(p, Count(p) - 1))
  {
    C.Last(GetCollection(p))
  }

  // ---------------------------------------------------------------------------
  // Mutators: only the held collection changes

  /** `add`: forwards, then returns nothing (the inner `add` returns the inner
      collection, which the proxy drops). */
  function Add<T>(p: Proxy<T>, v: C.Value<T>): (r: Step<Proxy<T>, Ret>)
    ensures r.state == Proxy(C.Add(GetCollection(p), v).state)
    ensures GetCollection(p).readOnly ==> r == Step(p, Err(ReadOnlyViolation))
    ensures !GetCollection(p).readOnly ==>
              r.result == Ok(Void) && Values(GetCollection(r.state).entities) == Values(GetCollection(p).entities) + [v]
  {
    var s := C.Add(GetCollection(p), v);
    Step(Proxy(s.state), Discard(s.result))
  }

  /** `offsetSet`: forwards, then returns nothing. */
  function OffsetSet<T>(p: Proxy<T>, k: Option<nat>, v: C.Value<T>): (r: Step<Proxy<T>, Ret>)
    ensures r.state == Proxy(C.OffsetSet(GetCollection(p), k, v).state)
    ensures GetCollection(p).readOnly ==> r == Step(p, Err(ReadOnlyViolation))
    ensures !GetCollection(p).readOnly ==> r.result == Ok(Void)
    ensures k.Some? && !GetCollection(p).readOnly ==> Lookup(GetCollection(r.state).entities, k.value) == Some(v)
  {
    var s := C.OffsetSet(GetCollection(p), k, v);
    Step(Proxy(s.state), Discard(s.result))
  }

  /** `offsetUnset`: forwards. */
  function OffsetUnset<T>(p: Proxy<T>, k: nat): (r: Step<Proxy<T>, Ret>)
    ensures r.state == Proxy(C.OffsetUnset(GetCollection(p), k).state)
    ensures GetCollection(p).readOnly ==> r == Step(p, Err(ReadOnlyViolation))
    ensures !GetCollection(p).readOnly ==> r.result == Ok(Void) && !OffsetExists(r.state, k)
  {
    var s := C.OffsetUnset(GetCollection(p), k);
    Step(Proxy(s.state), Discard(s.result))
  }

  /** `forAll`: forwards, then returns the proxy itself. */
  function ForAll<T>(p: Proxy<T>, act: C.Update<T>): (r: Step<Proxy<T>, Ret>)
    ensures r.state == Proxy(C.ForAll(GetCollection(p), act).state)
    ensures r.result.Err? <==> C.ForAll(GetCollection(p), act).result.Err?
    ensures r.result.Err? ==> r == Step(p, Err(ReadOnlyViolation))
    ensures r.result.Ok? ==> r.result.value == Self
  {
    var s := C.ForAll(GetCollection(p), act);
    Step(Proxy(s.state), if s.result.Err? then s.result else Ok(Self))
  }

  /** `sort`: forwards to the held collection's `sort` as it is written, then returns
      the proxy itself. The held collection's iterator is rewound but not marked
      stale, so a walk right after still follows the entries from before the sort. */
  function Sort<T>(p: Proxy<T>, sorter: C.Sorter<T>): (r: (Proxy<T>, Ret))
    ensures r.1 == Self
    ensures GetCollection(r.0).entities == sorter(GetCollection(p).entities)
    ensures GetCollection(r.0).readOnly == GetCollection(p).readOnly
    ensures !C.Stale(GetCollection(r.0)) && C.Position(GetCollection(r.0)) == 0
    ensures C.Snapshot(GetCollection(r.0)) == C.Snapshot(GetCollection(p))
  {
    (Proxy(C.SortAsWritten(GetCollection(p), sorter)), Self)
  }

  /** `sort` forwarding to the corrected collection `sort`: the next walk covers the
      sorted entries. */
  function SortIntended<T>(p: Proxy<T>, sorter: C.Sorter<T>): (r: (Proxy<T>, Ret))
    ensures r.1 == Self
    ensures GetCollection(r.0).entities == sorter(GetCollection(p).entities)
    ensures C.Fresh(GetCollection(r.0)) && C.Position(GetCollection(r.0)) == 0
    ensures Foreach(r.0).1 == sorter(GetCollection(p).entities).entries
  {
    (Proxy(C.Sort(GetCollection(p), sorter)), Self)
  }

  // ---------------------------------------------------------------------------
  // New collections: the inner collection's result, not a proxy

  /** `filter`: returns the collection the inner `filter` builds. */
  function Filter<T>(p: Proxy<T>, sel: C.Selector<T>): (r: (Proxy<T>, C.Collection<T>))
    ensures r == (Proxy(C.Filter(GetCollection(p), sel).0), C.Filter(GetCollection(p), sel).1)
    ensures C.Fresh(GetCollection(p)) ==> Values(r.1.entities) == C.Matching(GetCollection(p).entities.entries, sel)
  {
    var f := C.Filter(GetCollection(p), sel);
    (Proxy(f.0), f.1)
  }

  /** `slice`: returns the collection the inner `slice` builds. */
  function Slice<T>(p: Proxy<T>, offset: int, length: Option<int>): (r: C.Collection<T>)
    ensures r == C.Slice(GetCollection(p), offset, length)
    ensures Values(r.entities) == ArraySlice(GetCollection(p).entities, offset, length)
  {
    C.Slice(GetCollection(p), offset, length)
  }

  // ---------------------------------------------------------------------------
  // The iterator protocol, forwarded

  /** `current`: the element at the inner iterator's position, or `null`. */
  function Current<T>(p: Proxy<T>): (r: (Proxy<T>, C.Value<T>))
    ensures GetCollection(r.0) == C.GetIterator(GetCollection(p))
    ensures var c := GetCollection(p);
            r.1 == if C.Position(c) < |C.Snapshot(c)| then C.Snapshot(c)[C.Position(c)].value else C.Null
  {
    var q := C.Current(GetCollection(p));
    (Proxy(q.0), q.1)
  }

  /** `key`: the map key at the inner iterator's position, or `null`. */
  function Key<T>(p: Proxy<T>): (r: (Proxy<T>, Option<nat>))
    ensures GetCollection(r.0) == C.GetIterator(GetCollection(p))
    ensures var c := GetCollection(p);
            r.1 == if C.Position(c) < |C.Snapshot(c)| then Some(C.Snapshot(c)[C.Position(c)].key) else None
  {
    var q := C.Key(GetCollection(p));
    (Proxy(q.0), q.1)
  }

  /** `valid`: whether the inner iterator's position holds an entry. */
  function Valid<T>(p: Proxy<T>): (r: (Proxy<T>, bool))
    ensures GetCollection(r.0) == C.GetIterator(GetCollection(p))
    ensures r.1 <==> C.Position(GetCollection(p)) < |C.Snapshot(GetCollection(p))|
  {
    var q := C.Valid(GetCollection(p));
    (Proxy(q.0), q.1)
  }

  /** `next`: forwards and returns nothing; only the inner iterator moves. */
  function Next<T>(p: Proxy<T>): (r: Proxy<T>)
    ensures var c := GetCollection(p);
            && GetCollection(r).entities == c.entities
            && C.Snapshot(GetCollection(r)) == C.Snapshot(c)
            && C.Position(GetCollection(r)) == if C.Position(c) < |C.Snapshot(c)| then C.Position(c) + 1 else C.Position(c)
    ensures GetCollection(r) == C.Next(GetCollection(p))
    ensures GetCollection(r).readOnly == GetCollection(p).readOnly
  {
    Proxy(C.Next(GetCollection(p)))
  }

  /** `rewind`: forwards and returns nothing; only the inner iterator moves. */
  function Rewind<T>(p: Proxy<T>): (r: Proxy<T>)
    ensures GetCollection(r).entities == GetCollection(p).entities
    ensures C.Snapshot(GetCollection(r)) == C.Snapshot(GetCollection(p)) && C.Position(GetCollection(r)) == 0
    ensures GetCollection(r) == C.Rewind(GetCollection(p))
    ensures GetCollection(r).readOnly == GetCollection(p).readOnly
  {
    Proxy(C.Rewind(GetCollection(p)))
  }

  /** PHP `foreach` over the proxy: every protocol call is forwarded, so the walk is the
      inner collection's walk. */
  function Foreach<T>(p: Proxy<T>): (r: (Proxy<T>, seq<Entry<C.Value<T>>>))
    ensures r.1 == C.Snapshot(GetCollection(p))
    ensures C.Fresh(GetCollection(p)) ==> r.1 == GetCollection(p).entities.entries
    ensures GetCollection(r.0).entities == GetCollection(p).entities
  {
    var w := C.Foreach(GetCollection(p));
    (Proxy(w.0), w.1)
  }
}

=== FILE: scenarios.dfy ===
/** Concrete runs of the model on the inputs the repository's own tests use, with
    string elements. */
module Scenarios {
  import opened Outcomes
  import opened PhpArrays
  import C = Collections
  import P = Proxies
  import L = Lazies
  import Laws

  type Element = C.Value<string>

  const t1: Element := C.Val("test1")
  const t2: Element := C.Val("test2")
  const t3: Element := C.Val("test3")
  const t4: Element := C.Val("test4")
  const t5: Element := C.Val("test5")
  const t6: Element := C.Val("test6")
  const t7: Element := C.Val("test7")

  /** The seven-element collection the collection tests share. */
  function Seven(): (c: C.Collection<string>)
    ensures Values(c.entities) == [t1, t2, t3, t4, t5, t6, t7] && Dense(c.entities)
    ensures !c.readOnly && C.Fresh(c)
  {
    C.Create([t1, t2, t3, t4, t5, t6, t7])
  }

  // ---------------------------------------------------------------------------
  // The array-backed collection

  /** A new collection is empty, with count 0. */
  lemma EmptyCollection()
    ensures var c := C.Empty<string>();
            C.IsEmpty(c) && C.Count(c) == 0
  {
  }

  /** `current()` on a new collection is `null`. */
  lemma EmptyIteratorNull()
    ensures C.Current(C.Empty<string>()).1 == C.Null
  {
  }

  /** `first()` and `last()` on a new collection are `null`. */
  lemma EmptyFirstLastNull()
    ensures C.First(C.Empty<string>()) == Ok(C.Null) && C.Last(C.Empty<string>()) == Ok(C.Null)
  {
  }

  /** One `add` on a new collection: no longer empty, count 1. */
  lemma AddOne()
    ensures var c := C.Add(C.Empty<string>(), t1).state;
            !C.IsEmpty(c) && C.Count(c) == 1
  {
  }

  /** After one `add`: key 0 set and key 1 not, and reading key 15 throws. */
  lemma AddOneOffsets()
    ensures var c := C.Add(C.Empty<string>(), t1).state;
            && C.OffsetExists(c, 0) && !C.OffsetExists(c, 1)
            && C.OffsetGet(c, 0) == Ok(t1)
            && C.OffsetGet(c, 15) == Err(IndexOutOfRange(15))
  {
  }

  /** `offsetSet(15, x)` makes key 15 readable; unsetting it again removes it. */
  lemma SetThenUnsetFifteen()
    ensures var s := C.OffsetSet(C.Empty<string>(), Some(15), t1).state;
            && C.OffsetGet(s, 15) == Ok(t1)
            && !C.OffsetExists(C.OffsetUnset(s, 15).state, 15)
            && s.entities.nextFree == 16
  {
  }

  /** A new collection is writable; `setReadOnly(true)` makes it read-only. */
  lemma ReadOnlyFlag()
    ensures !C.IsReadOnly(C.Empty<string>())
    ensures C.IsReadOnly(C.SetReadOnly(C.Empty<string>(), true))
  {
  }

  /** Writes on a read-only collection throw, including `unset` after a write made
      while the flag was off. */
  lemma ReadOnlyWrites()
    ensures var ro := C.SetReadOnly(C.Empty<string>(), true);
            C.Add(ro, t1).result == Err(ReadOnlyViolation)
    ensures var c := C.Add(C.SetReadOnly(C.Empty<string>(), false), t1).state;
            && C.OffsetExists(c, 0)
            && C.OffsetUnset(C.SetReadOnly(c, true), 0) == Step(C.SetReadOnly(c, true), Err(ReadOnlyViolation))
  {
  }

  /** `current`, `next` and `rewind` walk the entries in the order they were added. */
  lemma IteratorWalk()
    ensures var c := C.Add(C.Add(C.Add(C.Empty<string>(), t1).state, t2).state, t3).state;
            var (c1, v1) := C.Current(c);
            var (c2, v2) := C.Current(C.Next(c1));
            var (c3, v3) := C.Current(C.Next(c2));
            var (_, v4) := C.Current(C.Rewind(c3));
            v1 == t1 && v2 == t2 && v3 == t3 && v4 == t1
  {
  }

  /** Past the last entry, `current` gives `null`. */
  lemma IteratorPastEnd()
    ensures var c := C.Add(C.Empty<string>(), C.Val("123")).state;
            C.Current(C.Next(c)).1 == C.Null
  {
  }

  /** The slice table of the collection tests, on any collection holding "test1" to
      "test7" in order. */
  lemma SliceTable(c: C.Collection<string>)
    requires Values(c.entities) == [t1, t2, t3, t4, t5, t6, t7]
    ensures Values(C.Slice(c, 0, Some(2)).entities) == [t1, t2]
    ensures Values(C.Slice(c, 2, Some(3)).entities) == [t3, t4, t5]
    ensures Values(C.Slice(c, -1, Some(2)).entities) == [t7]
    ensures Values(C.Slice(c, 0, Some(-2)).entities) == [t1, t2, t3, t4, t5]
    ensures Values(C.Slice(c, -4, Some(-2)).entities) == [t4, t5]
    ensures Values(C.Slice(c, 4, Some(-2)).entities) == [t5]
    ensures Values(C.Slice(c, 7, Some(-2)).entities) == []
  {
    var vs := Values(c.entities);
    assert vs[0..2] == [t1, t2];
    assert vs[2..5] == [t3, t4, t5];
    assert vs[6..7] == [t7];
    assert vs[0..5] == [t1, t2, t3, t4, t5];
    assert vs[3..5] == [t4, t5];
    assert vs[4..5] == [t5];
  }

  /** The filter of the collection tests: accepts exactly "test1", "test3" and
      "test5". */
  function OddTests(e: Element, key: nat): C.Answer {
    if e == t1 || e == t3 || e == t5 then C.Yes else C.No
  }

  /** The filter keeps the first, third and fifth of the seven entries. */
  lemma {:induction false} OddTestsMatch(es: seq<Entry<Element>>)
    requires es == [Entry(0, t1), Entry(1, t2), Entry(2, t3), Entry(3, t4), Entry(4, t5), Entry(5, t6), Entry(6, t7)]
    ensures C.Matching(es, OddTests) == [t1, t3, t5]
  {
    assert C.Matching(es[..0], OddTests) == [];
    assert es[..1] == es[..0] + [es[0]];
    C.MatchingSnoc(es[..0], es[0], OddTests);
    assert es[..2] == es[..1] + [es[1]];
    C.MatchingSnoc(es[..1], es[1], OddTests);
    assert es[..3] == es[..2] + [es[2]];
    C.MatchingSnoc(es[..2], es[2], OddTests);
    assert es[..4] == es[..3] + [es[3]];
    C.MatchingSnoc(es[..3], es[3], OddTests);
    assert es[..5] == es[..4] + [es[4]];
    C.MatchingSnoc(es[..4], es[4], OddTests);
    assert es[..6] == es[..5] + [es[5]];
    C.MatchingSnoc(es[..5], es[5], OddTests);
    assert es[..7] == es[..6] + [es[6]];
    C.MatchingSnoc(es[..6], es[6], OddTests);
    assert es[..7] == es;
  }

  lemma FilterOddTests(c: C.Collection<string>)
    requires Values(c.entities) == [t1, t2, t3, t4, t5, t6, t7] && Dense(c.entities) && C.Fresh(c)
    ensures var f := C.Filter(c, OddTests).1;
            && C.Count(f) == 3
            && C.OffsetGet(f, 0) == Ok(t1) && C.OffsetGet(f, 1) == Ok(t3) && C.OffsetGet(f, 2) == Ok(t5)
  {
    var es := c.entities.entries;
    assert es == [Entry(0, t1), Entry(1, t2), Entry(2, t3), Entry(3, t4), Entry(4, t5), Entry(5, t6), Entry(6, t7)];
    OddTestsMatch(es);
    var f := C.Filter(c, OddTests).1;
    assert Values(f.entities) == [t1, t3, t5];
    DenseGet(f, 0);
    DenseGet(f, 1);
    DenseGet(f, 2);
  }

  /** In a collection keyed 0..n-1, reading key `i` gives the `i`-th element. */
  lemma DenseGet(c: C.Collection<string>, i: nat)
    requires Dense(c.entities) && i < |c.entities.entries| && Values(c.entities)[i].Val?
    ensures C.OffsetGet(c, i) == Ok(Values(c.entities)[i])
  {
    assert c.entities.entries[i].key == i;
    FindPosition(c.entities, i);
  }

  /** The `forAll` of the collection tests: writes "1" at every key it visits. */
  function SetToOne(key: nat, e: Element): Option<Element> {
    Some(C.Val("1"))
  }

  lemma ForAllSetsEveryKey(c: C.Collection<string>)
    requires Values(c.entities) == [t1, t2, t3, t4, t5, t6, t7] && Dense(c.entities) && !c.readOnly
    ensures var r := C.ForAll(c, SetToOne);
            && r.result == Ok(Self)
            && C.OffsetGet(r.state, 0) == Ok(C.Val("1"))
            && C.OffsetGet(r.state, 2) == Ok(C.Val("1"))
            && C.OffsetGet(r.state, 6) == Ok(C.Val("1"))
  {
    var r := C.ForAll(c, SetToOne);
    var es := r.state.entities.entries;
    assert es[0].key == 0 && es[2].key == 2 && es[6].key == 6 by {
      assert Keys(r.state.entities) == Keys(c.entities);
    }
  }

  /** `first` and `last` of the seven-element collection are its ends. */
  lemma FirstLastOfSeven()
    ensures C.First(Seven()) == Ok(t1) && C.Last(Seven()) == Ok(t7)
  {
    var es := Seven().entities.entries;
    assert es[0].key == 0 && es[6].key == 6;
  }

  /** `first` reads the literal key 0: once it is unset, `first` throws although the
      collection is not empty and its first entry in enumeration order is "test2". */
  lemma FirstOnSparseCollection()
    ensures var c := C.OffsetUnset(C.Create([t1, t2]), 0).state;
            && C.Count(c) == 1 && c.entities.entries[0].value == t2
            && C.First(c) == Err(IndexOutOfRange(0))
  {
    var c0 := C.Create([t1, t2]);
    assert c0.entities.entries[0].key == 0 && c0.entities.entries[1].key == 1;
    FindPosition(c0.entities, 0);
  }

  // ---------------------------------------------------------------------------
  // The sort finding

  /** A sorter that reverses the enumeration order and keeps the keys, as PHP's
      `krsort` does on a dense array. */
  function ReverseOrder(a: PhpArray<Element>): (r: PhpArray<Element>)
    ensures |r.entries| == |a.entries|
    ensures forall i :: 0 <= i < |a.entries| ==> r.entries[i] == a.entries[|a.entries| - 1 - i]
  {
    var n := |a.entries|;
    var es := seq(n, i requires 0 <= i < n => a.entries[n - 1 - i]);
    assert forall i, j :: 0 <= i < j < n ==> es[i].key == a.entries[n - 1 - i].key && es[j].key == a.entries[n - 1 - j].key;
    RawArray(es, a.nextFree)
  }

  /** As written, a walk right after `sort` still visits the pre-sort order, while the
      corrected `sort` visits the sorted one. */
  lemma SortLeavesStaleWalk()
    ensures var c := C.Create([t1, t2]);
            var w := C.SortAsWritten(c, ReverseOrder);
            && w.entities.entries == [Entry(1, t2), Entry(0, t1)]
            && C.Foreach(w).1 == [Entry(0, t1), Entry(1, t2)]
            && C.Current(w).1 == t1
    ensures var c := C.Create([t1, t2]);
            var s := C.Sort(c, ReverseOrder);
            && C.Foreach(s).1 == [Entry(1, t2), Entry(0, t1)]
            && C.Current(s).1 == t2
  {
    var c := C.Create([t1, t2]);
    assert c.entities.entries == [Entry(0, t1), Entry(1, t2)];
  }

  // ---------------------------------------------------------------------------
  // The proxy

  /** A proxy over a read-only collection passes the read-only error on to `add`. */
  lemma ProxyOverReadOnly()
    ensures var p := P.New(C.SetReadOnly(C.Empty<string>(), true));
            P.Add(p, t1).result == Err(ReadOnlyViolation) && P.Count(p) == 0
  {
  }

  // ---------------------------------------------------------------------------
  // The lazy collection

  function Three(): L.Lazy<string> {
    L.New(Some(L.CollectionOf([t1, t2, t3])))
  }

  /** Without an initializer the lazy collection is empty. */
  lemma LazyWithoutInitializer()
    ensures L.IsEmpty(L.New<string>(None)).result == Ok(true)
    ensures L.Count(L.New<string>(None)).result == Ok(0)
  {
  }

  /** The first access runs the initializer and appends its three elements. */
  lemma ThreeInitialized()
    ensures var g := L.GetCollection(Three());
            && g.result.Ok? && g.state.initialized
            && L.Inner(g.state).entities.entries == [Entry(0, t1), Entry(1, t2), Entry(2, t3)]
            && C.Fresh(L.Inner(g.state))
  {
    Laws.FirstAccessPopulates([t1, t2, t3]);
    var g := L.GetCollection(Three());
    DenseThree(L.Inner(g.state).entities);
    assert L.Inner(g.state).iter.None?;
  }

  /** The only array keyed 0..2 holding test1, test2, test3. */
  lemma DenseThree(a: PhpArray<C.Value<string>>)
    requires Values(a) == [t1, t2, t3] && Dense(a)
    ensures a.entries == [Entry(0, t1), Entry(1, t2), Entry(2, t3)]
  {
    assert a.entries[0] == Entry(0, t1) && a.entries[1] == Entry(1, t2) && a.entries[2] == Entry(2, t3);
  }

  /** The first `count` initializes and gives 3. */
  lemma LazyCountInitializes()
    ensures L.Count(Three()).result == Ok(3) && L.Count(Three()).state.initialized
  {
    ThreeInitialized();
  }

  /** The first `offsetGet(1)` initializes and gives "test2". */
  lemma LazyOffsetGetInitializes()
    ensures L.OffsetGet(Three(), 1).result == Ok(t2)
  {
    ThreeInitialized();
    var inner := L.Inner(L.GetCollection(Three()).state);
    assert inner.entities.entries[1] == Entry(1, t2);
    assert Lookup(inner.entities, 1) == Some(t2);
    assert C.OffsetGet(inner, 1) == Ok(t2);
  }

  /** The first `offsetExists(1)` initializes and gives true. */
  lemma LazyOffsetExistsInitializes()
    ensures L.OffsetExists(Three(), 1).result == Ok(true)
  {
    ThreeInitialized();
    var inner := L.Inner(L.GetCollection(Three()).state);
    assert inner.entities.entries[1] == Entry(1, t2);
    assert Lookup(inner.entities, 1) == Some(t2);
    assert C.OffsetExists(inner, 1) == true;
  }

  /** The first `isEmpty` initializes and gives false. */
  lemma LazyIsEmptyInitializes()
    ensures L.IsEmpty(Three()).result == Ok(false)
  {
    ThreeInitialized();
  }

  /** An initializer that returns a string makes the first `count` throw. */
  lemma LazyWrongType()
    ensures L.Count(L.New<string>(Some(L.NotACollection))).result == Err(UnexpectedType)
  {
  }

  /** `foreach` over the lazy collection initializes it and visits three entries. */
  lemma LazyForeach()
    ensures var r := L.Foreach(Three());
            r.result.Ok? && |r.result.value| == 3
  {
    ThreeInitialized();
  }

  /** Serializing and unserializing gives a lazy collection with three elements, the
      first being "test1". */
  lemma LazySerializeRoundTrip()
    ensures var s := L.Serialize(Three());
            && s.result.Ok?
            && L.Count(L.Unserialize(s.result.value)).result == Ok(3)
            && L.OffsetGet(L.Unserialize(s.result.value), 0).result == Ok(t1)
  {
    var g := L.GetCollection(Three());
    assert L.Inner(g.state).entities.entries == C.Appended(0, [t1, t2, t3]);
    var s := L.Serialize(Three());
    assert s.result.value.elements == [t1, t2, t3];
    var u := L.GetCollection(L.Unserialize(s.result.value));
    assert L.Inner(u.state).entities.entries == C.Appended(0, [t1, t2, t3]);
    assert L.Inner(u.state).entities.entries[0] == Entry(0, t1);
  }

  /** Unsetting key 0 initializes the collection first; the following `foreach` visits
      the two remaining entries. */
  lemma LazyUnsetThenForeach()
    ensures var u := L.OffsetUnset(Three(), 0);
            var r := L.Foreach(u.state);
            u.result == Ok(Void) && r.result.Ok? && |r.result.value| == 2
  {
    var g := L.GetCollection(Three());
    var inner := L.Inner(g.state);
    assert inner.entities.entries == C.Appended(0, [t1, t2, t3]);
    assert inner.entities.entries[0].key == 0;
    FindPosition(inner.entities, 0);
    var u := L.OffsetUnset(Three(), 0);
    assert L.Inner(u.state) == C.OffsetUnset(inner, 0).state;
    assert |L.Inner(u.state).entities.entries| == 2;
  }
}
